=== FILE: README.md ===
# LinkFree front end — a Dafny model of its client-side rules

LinkFree lets a user publish one or more link pages (a bio, a list of links,
social links and a background) at a public address. The React front end has
little logic of its own: every persistent operation is an HTTP call to a
backend. What it does decide locally is modelled here:

- the profile-setup wizard's five-step state machine, with its username
  rule, its image check and its final submission guard;
- the editable collections — social links with one entry per platform, page
  links with add / remove-by-id / update-by-title, the page list, the sample
  link list, the background options and the overview statistics;
- the validators — the sign-up and log-in forms, the two image checks with
  their different limits, and the premium-theme guard;
- the string builders and classifiers — the share, profile and API
  addresses and the three-way background rule;
- the authentication state and the protected-route decision.

Every HTTP reply is a parameter (`Common.Reply<T>`: `Ok(value)` or
`Failed(serverError)`, the latter carrying the text of whichever reply-body
field the screen reads, when there is one: `message` for the public profile
page and the sign-up form, `error` for the wizard, the settings page and the
log-in call). A screen whose handlers update its state is a class whose
methods state the new value of every field; the rules those methods apply are
pure functions, and the properties are lemmas about those functions.
JavaScript semantics are written out where they matter: `a || b` on strings
(`Common.Or`), the text `undefined` produced by a template literal
(`Common.Interp`), `startsWith`, the `\s` class, and `toLowerCase`.

One module per source file, plus shared modules for logic the source repeats:
`Common` (options, replies, JavaScript string helpers and a generic filter),
`ImageFiles` (the image type and size check), `PageEditor` (the page-link
handlers that the page editor and the page creator both carry), `Backgrounds`
(the background rule that three screens carry) and `PageUrls` (the
default-page / slug-page address rule).

## Model

| member | source | states |
|---|---|---|
| ImageFiles.Check | src/components/ProfileSetupWizard.tsx:131-147 | the type test comes first; a file is refused as too large exactly when its size is strictly above the limit, so a file of exactly the limit is accepted |
| ImageFiles.WizardVersusSettings | src/pages/dashboard/ProfileSettings.tsx:98-123 | every file the wizard accepts, the settings page accepts unless it is above 2 MiB; every GIF is refused by the wizard; every non-GIF the settings page accepts, the wizard accepts |
| ProfileSetup.Index | src/components/ProfileSetupWizard.tsx:74 | the five steps are numbered 0 to 4 in wizard order |
| ProfileSetup.Back | src/components/ProfileSetupWizard.tsx:266-276 | Back goes to the preceding step and is a no-op only on the username step |
| ProfileSetup.Skip | src/components/ProfileSetupWizard.tsx:257-264 | Skip changes the step exactly on the two optional steps (picture, bio), and then moves one step forward |
| ProfileSetup.BackUndoesSkip | src/components/ProfileSetupWizard.tsx:257-276 | skipping an optional step and going back returns to that step |
| ProfileSetup.UsernameError | src/components/ProfileSetupWizard.tsx:41-49 | a username passes iff it has 3 to 30 characters, all from `[A-Za-z0-9_]`; each failing case gets its own message, the length checks first |
| ProfileSetup.UsernameLimitIsThirty | src/components/ProfileSetupWizard.tsx:45 | the over-length message speaks of 20 characters, yet a 25-character name passes and a 31-character one gets that message |
| ProfileSetup.Wizard.constructor | src/components/ProfileSetupWizard.tsx:79-89 | the wizard starts on the username step with empty user data, no error and nothing loading |
| ProfileSetup.Wizard.SubmitUsername | src/components/ProfileSetupWizard.tsx:173-203 | a name failing the rule sends nothing; otherwise an available name is stored and the step becomes displayName, a taken one sets "Username is already taken", and a failed availability request leaves `isCheckingUsername` set and nothing else changed |
| ProfileSetup.Wizard.SubmitDisplayName | src/components/ProfileSetupWizard.tsx:205-208 | the display name is stored as entered (that form has no resolver) and the step becomes profilePicture |
| ProfileSetup.CheckedChoice | src/components/ProfileSetupWizard.tsx:131-147 | the picture form should hold a file exactly when the wizard's check accepts it, and then that file |
| ProfileSetup.Wizard.ChooseImage | src/components/ProfileSetupWizard.tsx:545-548 | as written: the check of lines 131-147 sets the type or size message for a refused file and clears the error for an accepted one (no file leaves it alone), and the input's change handler then hands the chosen file, or nothing, to the picture form whatever the check said |
| ProfileSetup.Wizard.ChooseImageChecked | src/components/ProfileSetupWizard.tsx:131-147 | corrected: the same error as `ChooseImage`, but the form holds `CheckedChoice` of the file, so never a refused file |
| ProfileSetup.Wizard.SubmitProfilePicture | src/components/ProfileSetupWizard.tsx:149-172 | without a held file the form's message is shown and nothing is sent; otherwise exactly the held file is sent, a successful upload stores the returned url and moves to bio; a failed one keeps the step and sets the reply body's `error` or "Upload failed. Try again."; `loading` ends false |
| ProfileSetup.Wizard.SubmitBio | src/components/ProfileSetupWizard.tsx:210-213 | the bio is stored as entered (no resolver) and the step becomes complete |
| ProfileSetup.Wizard.SkipStep | src/components/ProfileSetupWizard.tsx:257-264 | the step becomes `Skip` of the old step and nothing else changes |
| ProfileSetup.Wizard.GoBack | src/components/ProfileSetupWizard.tsx:266-276 | the step becomes `Back` of the old step and nothing else changes |
| ProfileSetup.Wizard.CompleteSetup | src/components/ProfileSetupWizard.tsx:215-255 | nothing is sent iff the username or display name is empty (then the fixed error is set); only the reply message "Profile setup complete" leads to the dashboard, any other reply sets an error; the step never changes and `loading` ends false |
| ProfileSetup.RefusedFileUploadedAsWritten | src/components/ProfileSetupWizard.tsx:545-548 | as written, a file refused by the check shows its message and is still what submitting sends, and the wizard moves on to the bio step with the returned url |
| ProfileSetup.RefusedFileNeverUploaded | src/components/ProfileSetupWizard.tsx:131-171 | with the corrected choice a refused file is never sent: the form asks for a valid image and the wizard stays on the picture step with no picture |
| ProfileSetup.HappyPath | src/components/ProfileSetupWizard.tsx:187-255 | naming a free valid username, entering a display name, skipping both optional steps and completing sends exactly the entered values and leads to /dashboard |
| SocialLinks.AddSocialLink | src/components/SocialLinksDialog.tsx:66-85 | a platform already present leaves the list as it is; otherwise exactly one entry with that platform and an empty url is appended and the existing entries are unchanged |
| SocialLinks.RemoveSocialLink | src/components/SocialLinksDialog.tsx:87-91 | the result holds exactly the entries of other platforms |
| SocialLinks.UpdateLinkUrl | src/components/SocialLinksDialog.tsx:58-64 | length, order, ids and platforms are kept; only entries of the platform get the new url |
| SocialLinks.ToggleLinkStatus | src/components/SocialLinksDialog.tsx:50-56 | the result equals the input |
| SocialLinks.RemoveKeepsOthers | src/components/SocialLinksDialog.tsx:87-91 | every entry of another platform keeps its number of occurrences |
| SocialLinks.RemoveOrder | src/components/SocialLinksDialog.tsx:87-91 | removal distributes over concatenation, so the kept entries stay in their original order |
| SocialLinks.RemoveAbsent | src/components/SocialLinksDialog.tsx:87-91 | removing a platform that is not present changes nothing |
| SocialLinks.AddKeepsOnePerPlatform | src/components/SocialLinksDialog.tsx:66-85 | add preserves "at most one entry per platform" |
| SocialLinks.UpdateKeepsOnePerPlatform | src/components/SocialLinksDialog.tsx:58-64 | update preserves "at most one entry per platform" |
| SocialLinks.RemoveKeepsOnePerPlatformRec | src/components/SocialLinksDialog.tsx:87-91 | filtering out one platform preserves "at most one entry per platform" |
| SocialLinks.RemoveKeepsOnePerPlatform | src/components/SocialLinksDialog.tsx:87-91 | remove preserves "at most one entry per platform" |
| SocialLinks.AvailablePlatformsCoverEnum | src/components/SocialLinksDialog.tsx:41-48 | the dialog's option list names each of the six platforms exactly once |
| SocialLinks.UsedPlatforms | src/components/SocialLinksDialog.tsx:94 | the used-platform list has one entry per link, its platform, in order |
| SocialLinks.UnusedPlatformsAsWritten | src/components/SocialLinksDialog.tsx:93-98 | as written, the unused-platform list is always all six options |
| SocialLinks.AsWrittenOffersUsedPlatform | src/components/SocialLinksDialog.tsx:75-98 | with any link present, the as-written list offers a platform already in use, and choosing it adds nothing |
| SocialLinks.UnusedPlatforms | src/components/SocialLinksDialog.tsx:93-98 | corrected: an option is offered iff its platform is not in use |
| SocialLinks.UnusedPlatformsMatchAdd | src/components/SocialLinksDialog.tsx:66-98 | corrected: a platform is offered iff adding it appends an entry |
| PageEditor.AddLink | src/pages/EditPage.tsx:190-197 | one empty, id-less link is appended after the unchanged existing links |
| PageEditor.RemoveLink | src/pages/EditPage.tsx:199-201 | the result holds exactly the links whose id differs from the argument |
| PageEditor.UpdateLink | src/pages/EditPage.tsx:203-208 | length is kept; links with another title are unchanged; every link with the given title gets the value in the named field and keeps everything else |
| PageEditor.Clicks | src/pages/EditPage.tsx:146 | `link.clicks || 0`: the link's click count, 0 when it has none |
| PageEditor.TotalLinkClicks | src/pages/EditPage.tsx:145-148 | with no negative click counts the total is not negative |
| PageEditor.TotalLinkClicksAppend | src/pages/EditPage.tsx:145-148 | the total over two lists put together is the sum of their totals |
| PageEditor.AddLinkKeepsTotal | src/pages/EditPage.tsx:190-197 | adding a link does not change the click total |
| PageEditor.RemoveLinkTotal | src/pages/EditPage.tsx:199-201 | removing by id lowers the total by exactly the clicks of the removed links |
| PageEditor.RemovingNewLinkRemovesEveryIdless | src/pages/EditPage.tsx:199-201 | removing a link added in the editor (its id is undefined) removes every id-less link, so with another one present more than one link disappears |
| PageEditor.UpdateReachesEqualTitles | src/pages/EditPage.tsx:203-208 | editing one of two links with equal titles edits both |
| PageEditor.PayloadLinks | src/pages/EditPage.tsx:113-122 | the payload has the links' length and order, each with title, url and clicks (missing as 0), ids dropped |
| PageEditor.PayloadKeepsTotal | src/pages/EditPage.tsx:113-122 | the payload carries the same click total as the screen |
| PageEditor.PayloadIgnoresIds | src/pages/EditPage.tsx:113-122 | lists differing only in ids give the same payload |
| PageEditor.InitialBio | src/pages/CreatePage.tsx:156 | the page bio when non-empty, else the user bio when non-empty, else "" |
| Backgrounds.Classify | src/pages/EditPage.tsx:213-234 | empty or missing gives the default gradient; a value starting with "bg-" is a colour class; any other value is an image url |
| Backgrounds.EditorStyle | src/pages/EditPage.tsx:213-234 | an image url gets the base classes plus `url(...)` sized to cover; a colour class is appended to the base classes; an empty value gets the gradient classes |
| Backgrounds.ProfileStyle | src/pages/PortfolioCard.tsx:118-140 | the same rule on the profile's base classes, with no size or position for an image |
| Backgrounds.EditorAgreesWithProfile | src/pages/CreatePage.tsx:194-215 | the editor preview and the public profile give the same image url, and otherwise the same classes after their base classes |
| EditPage.NormaliseSocialLinks | src/pages/EditPage.tsx:172-178 | each loaded social link keeps its id and platform, and a url that is not a string becomes "" |
| EditPage.AsRaw | src/pages/EditPage.tsx:113-122 | saved social links reach the server with their id, platform and url as a string |
| EditPage.NormaliseRoundTrip | src/pages/EditPage.tsx:172-178 | loading social links that the editor saved gives them back unchanged |
| EditPage.LoadedBackground | src/pages/EditPage.tsx:180 | the loaded background is never empty and is the server's value when that is non-empty |
| EditPage.LoadedBackgroundNeverGradient | src/pages/EditPage.tsx:180 | after a load the preview never shows the default gradient; a missing background shows the class bg-blue-100 |
| EditPage.EditPageState.constructor | src/pages/EditPage.tsx:37-59 | the editor starts loading, empty and visible |
| EditPage.EditPageState.Load | src/pages/EditPage.tsx:150-188 | a successful fetch fills every field with its default; a failure changes nothing but `loading`, which ends false |
| EditPage.EditPageState.AddLinkClicked | src/pages/EditPage.tsx:190-197 | the links become `AddLink` of the old links; nothing else changes |
| EditPage.EditPageState.RemoveLinkClicked | src/pages/EditPage.tsx:199-201 | the links become `RemoveLink` of the old links; nothing else changes |
| EditPage.EditPageState.LinkEdited | src/pages/EditPage.tsx:203-208 | the links become `UpdateLink` of the old links; nothing else changes |
| EditPage.EditPageState.ChangeVisibility | src/pages/EditPage.tsx:73-109 | the request carries the page id and the new value; `isVisible` takes it only when the request succeeds; the toast title is "Page is now visible" or "Page is now hidden" on success and "Failed to update visibility" on failure |
| EditPage.EditPageState.Save | src/pages/EditPage.tsx:110-144 | the payload mirrors the screen with the same click total; success is reported iff the reply is Ok; `isSaving` ends false |
| Common.StripSpaces | src/pages/CreatePage.tsx:127 | exactly the characters that are not white space remain, and a string without white space is returned unchanged |
| Common.StripSpacesIsFilter | src/pages/CreatePage.tsx:127 | removing white space is filtering by "not white space", so the kept characters keep their order |
| Common.StripSpacesAppend | src/pages/CreatePage.tsx:127 | removing white space distributes over concatenation |
| Common.LowerChar | src/pages/CreatePage.tsx:128 | an ASCII capital moves 32 code points down to its small letter; every other character is kept; white space stays white space |
| Common.Lower | src/pages/CreatePage.tsx:128 | each character is lower-cased in place, and a string without ASCII capitals is unchanged |
| Common.LowerAppend | src/pages/CreatePage.tsx:128 | lower-casing distributes over concatenation |
| Common.LowerIdempotent | src/pages/CreatePage.tsx:128 | lower-casing twice is lower-casing once |
| Common.StripLowerCommute | src/pages/CreatePage.tsx:126-128 | removing white space and lower-casing may be done in either order |
| CreatePage.NormaliseUsername | src/pages/CreatePage.tsx:126-128 | the result has no white space and no ASCII capital, is as long as the input without its white space, and a username with neither is kept as it is |
| CreatePage.NormaliseIdempotent | src/pages/CreatePage.tsx:126-128 | normalising twice is normalising once |
| CreatePage.NormaliseAppend | src/pages/CreatePage.tsx:126-128 | a username split anywhere normalises to its two normalised halves |
| CreatePage.NormaliseSpace | src/pages/CreatePage.tsx:127 | a single white-space character normalises to nothing |
| CreatePage.NormaliseDropsSpace | src/pages/CreatePage.tsx:126-128 | a white-space character anywhere in a username may be dropped without changing the result |
| CreatePage.NormaliseIgnoresCase | src/pages/CreatePage.tsx:126-128 | lower-casing the username first changes nothing |
| CreatePage.ProfileLink | src/pages/CreatePage.tsx:126-128 | the link is "https://linkfree.app/" followed by the normalised username |
| CreatePage.ProfileLinkStable | src/pages/CreatePage.tsx:126-128 | usernames that differ only in white space and ASCII case get the same link: normalising first, dropping any one white-space character, or lower-casing first each leave the link unchanged |
| CreatePage.ProfileLinkInjective | src/pages/CreatePage.tsx:126-128 | two usernames get the same link exactly when they normalise to the same name |
| CreatePage.SuccessCardUrl | src/pages/CreatePage.tsx:477-485 | the success card shows the frontend address, the normalised username and, unless the page is the default one, the slug |
| CreatePage.ShareSheetUrl | src/pages/CreatePage.tsx:494-498 | the share sheet opened by the creator gets the normalised slug as its username and no slug or default flag, so its address is the site, the normalised slug and "/undefined" |
| CreatePage.ShareSheetShowsUndefined | src/pages/CreatePage.tsx:494-498 | whatever the slug, the creator's share address ends in "/undefined" |
| CreatePage.CreatePageState.constructor | src/pages/CreatePage.tsx:44-67 | the creator starts loading, empty, visible, not default and without the success card |
| CreatePage.CreatePageState.Load | src/pages/CreatePage.tsx:144-169 | a successful fetch sets the bio by the fallback rule, the default flag and the username; a failure changes nothing but `loading`, which ends false |
| CreatePage.CreatePageState.AddLinkClicked | src/pages/CreatePage.tsx:171-177 | the links become `AddLink` of the old links; nothing else changes |
| CreatePage.CreatePageState.RemoveLinkClicked | src/pages/CreatePage.tsx:179-181 | the links become `RemoveLink` of the old links; nothing else changes |
| CreatePage.CreatePageState.LinkEdited | src/pages/CreatePage.tsx:183-189 | the links become `UpdateLink` of the old links; nothing else changes |
| CreatePage.CreatePageState.Publish | src/pages/CreatePage.tsx:101-142 | the payload carries slug, bio, social links, background, visibility and the mapped links; only success sets the profile link and shows the success card; `isSaving` ends false |
| CreatePage.CreatePageState.CloseSuccessCard | src/pages/CreatePage.tsx:95-97 | the success card is hidden and nothing else changes |
| Portfolio.FetchUrl | src/pages/PortfolioCard.tsx:62-64 | `/api/portfolio/{username}/{slug}` when the slug is non-empty, else `/api/portfolio/{username}` |
| Portfolio.TrackUrl | src/pages/PortfolioCard.tsx:88-90 | the tracking address lies under `/api/portfolio/{username}/`, ends in "/track-link", and carries the slug segment exactly when the slug is non-empty |
| Portfolio.TrackUrlExtendsFetchUrl | src/pages/PortfolioCard.tsx:88-90 | the click-tracking address is the fetch address followed by "/track-link" |
| Portfolio.LinkClick | src/pages/PortfolioCard.tsx:84-106 | the link is opened and the click posted to the tracking address; when the post fails the link is opened a second time and a toast is shown |
| Portfolio.SocialLinksArray | src/pages/PortfolioCard.tsx:108-116 | one entry per key, numbered from 1, a url that is not a string replaced by ""; no data gives no entries |
| Portfolio.SocialLinkIdsIncreasing | src/pages/PortfolioCard.tsx:108-116 | the rendered ids are positive and strictly increasing |
| Portfolio.DisplayedBio | src/pages/PortfolioCard.tsx:179 | the page bio when non-empty, otherwise the user bio |
| Portfolio.AvatarFallback | src/pages/PortfolioCard.tsx:170 | a prefix of the display name of length two, or the whole name when shorter |
| Portfolio.PageStyle | src/pages/PortfolioCard.tsx:118-140 | the profile background rule applied to the page's background, or to none without data |
| Portfolio.ViewOf | src/pages/PortfolioCard.tsx:142-155 | loading first; then an error or missing data gives the not-found page; otherwise the profile of that data |
| Portfolio.PortfolioPage.constructor | src/pages/PortfolioCard.tsx:52-56 | no data, no error, loading |
| Portfolio.PortfolioPage.Fetch | src/pages/PortfolioCard.tsx:59-82 | a reply sets the data; a failure sets the reply body's `message` or "Failed to load profile data"; `loading` ends false |
| Portfolio.FailedFetchShowsNotFound | src/pages/PortfolioCard.tsx:153-155 | a failed first fetch always ends on the not-found page |
| PageUrls.ProfileUrl | src/components/ShareDialog.tsx:45 | the profile address is the site, one "/", and the username |
| PageUrls.PageUrl | src/components/ShareDialog.tsx:44-48 | the default page's address is exactly the profile address; any other page's is the profile address followed by "/" and the slug |
| PageUrls.PageUrlInjectiveInSlug | src/components/SuccesCard.tsx:34-38 | two non-default pages of one user share an address only when their slugs are equal |
| ShareDialog.ShareUrl | src/components/ShareDialog.tsx:43-48 | `https://linkfree.tech/{username}` for a default page, else `https://linkfree.tech/{username}/{slug}`, missing values written "undefined" |
| ShareDialog.PreviewUrl | src/components/ShareDialog.tsx:106-114 | preview opens the default-page address whatever the slug |
| ShareDialog.PreviewDiffersFromNonDefault | src/components/ShareDialog.tsx:106-114 | for a non-default page the preview address is a proper prefix of the shared one |
| ShareDialog.SocialShare | src/components/ShareDialog.tsx:62-96 | Twitter and Facebook open their share address around the encoded username-only address; Instagram only shows its toast; any other platform opens nothing |
| ShareDialog.SocialShareIgnoresPage | src/components/ShareDialog.tsx:66-75 | the shared address does not depend on the slug or the default flag |
| ShareDialog.ShareSheet.constructor | src/components/ShareDialog.tsx:40 | the sheet holds its props and starts not copied |
| ShareDialog.ShareSheet.CopyLink | src/components/ShareDialog.tsx:50-60 | exactly the share address is copied and `copied` is set |
| ShareDialog.ShareSheet.CopiedTimerFired | src/components/ShareDialog.tsx:59 | `copied` is cleared |
| SuccessCard.ShareUrl | src/components/SuccesCard.tsx:33-38 | `{frontend}/{username}` for a default page, else `{frontend}/{username}/{slug}` |
| SuccessCard.AgreesWithShareDialog | src/components/SuccesCard.tsx:33-38 | with the site as frontend address the card and the share dialog give the same address |
| SuccessCard.Press | src/components/SuccesCard.tsx:40-87 | copy writes exactly the address and reports success or failure; "view page" opens exactly the address |
| ProfileSettings.WithField | src/pages/dashboard/ProfileSettings.tsx:57-59 | only the field named by the input id changes |
| ProfileSettings.EditsKeepUsername | src/pages/dashboard/ProfileSettings.tsx:57-59 | editing the display name or bio keeps the username, and the last edit of a field wins |
| ProfileSettings.PicUpload | src/pages/dashboard/ProfileSettings.tsx:61-123 | no file does nothing; a type outside JPEG/PNG/GIF or a size above 2 MiB is refused with its toast and no upload; a successful upload sets only the picture |
| ProfileSettings.TwoMiBBoundary | src/pages/dashboard/ProfileSettings.tsx:112-119 | exactly 2 MiB is uploaded, one byte more is not |
| ProfileSettings.SavePayload | src/pages/dashboard/ProfileSettings.tsx:131-140 | the request carries display name, bio and picture, never the username |
| ProfileSettings.AfterSave | src/pages/dashboard/ProfileSettings.tsx:141-149 | success overwrites exactly those three fields from the reply; the username never changes; failure changes nothing |
| ProfileSettings.SaveEchoIsIdentity | src/pages/dashboard/ProfileSettings.tsx:131-149 | a reply echoing the sent values leaves the form as it was |
| ProfileSettings.SettingsPage.constructor | src/pages/dashboard/ProfileSettings.tsx:21-28 | the form starts empty, loading and not uploading |
| ProfileSettings.SettingsPage.Load | src/pages/dashboard/ProfileSettings.tsx:29-55 | a reply fills the form; a failure keeps it; `loading` ends false |
| ProfileSettings.SettingsPage.HandleInputChange | src/pages/dashboard/ProfileSettings.tsx:57-59 | the form becomes `WithField` of the old form |
| ProfileSettings.SettingsPage.HandleProfilePicUpload | src/pages/dashboard/ProfileSettings.tsx:61-123 | the form and toast are those of `PicUpload`; `uploading` ends false when an upload was made |
| ProfileSettings.SettingsPage.HandleSaveChanges | src/pages/dashboard/ProfileSettings.tsx:125-161 | the payload is `SavePayload` of the old form and the form becomes `AfterSave` of it |
| BackgroundDialog.CountsAppend | src/components/BackgroundImageDialog.tsx:26-49 | the counts of colour and image options distribute over concatenation of option lists |
| BackgroundDialog.InitialOptionsShape | src/components/BackgroundImageDialog.tsx:26-49 | ten options, seven colours and three images, each with exactly one of the two |
| BackgroundDialog.ChoiceValue | src/components/BackgroundImageDialog.tsx:116-118 | choosing gives the image when present, else the colour, else "" |
| BackgroundDialog.ChosenIsSelected | src/components/BackgroundImageDialog.tsx:116-124 | a chosen option is then marked selected |
| BackgroundDialog.UploadCounts | src/components/BackgroundImageDialog.tsx:51-99 | a successful upload adds exactly one image option and no colour option; any other outcome changes neither count |
| BackgroundDialog.UploadsFromInitial | src/components/BackgroundImageDialog.tsx:26-99 | the built-in list followed by uploaded image options holds seven colours and three images plus one per upload |
| BackgroundDialog.InitialChoiceMarksOnlyItself | src/components/BackgroundImageDialog.tsx:122-124 | among the initial options, choosing one marks exactly that one selected |
| BackgroundDialog.Upload | src/components/BackgroundImageDialog.tsx:51-99 | no file, a reply without a url or a failure leaves background and options alone; otherwise the background becomes the url and exactly one option is appended |
| BackgroundDialog.UploadedIsSelected | src/components/BackgroundImageDialog.tsx:74-85 | the uploaded image becomes the selected option |
| BackgroundDialog.BackgroundPicker.constructor | src/components/BackgroundImageDialog.tsx:19-49 | the dialog starts with the initial options and the page's background |
| BackgroundDialog.BackgroundPicker.Choose | src/components/BackgroundImageDialog.tsx:116-118 | the background becomes the option's choice value; the options stay |
| BackgroundDialog.BackgroundPicker.UploadFile | src/components/BackgroundImageDialog.tsx:51-99 | background and options become those of `Upload` |
| Themes.FindTheme | src/pages/dashboard/ThemesPage.tsx:57 | nothing is found iff no theme has the id; a found theme is in the list with that id |
| Themes.PremiumGuard | src/pages/dashboard/ThemesPage.tsx:57 | the guard holds exactly for "gradient" and "retro"; an id naming no theme gives undefined, which fails it |
| Themes.Apply | src/pages/dashboard/ThemesPage.tsx:56-72 | a premium id keeps the active theme with the "Premium Theme" toast; any other id, unknown ones included, becomes active with "Theme Applied" |
| Themes.InitialThemeIsFree | src/pages/dashboard/ThemesPage.tsx:23-32 | the initial theme "minimal" exists and is not premium |
| Themes.ApplyByKind | src/pages/dashboard/ThemesPage.tsx:56-72 | the free themes become active, the premium ones do not, and an unknown id becomes active |
| Themes.ApplyIdempotent | src/pages/dashboard/ThemesPage.tsx:56-72 | applying a theme twice is applying it once |
| Themes.ApplyNeverActivatesPremium | src/pages/dashboard/ThemesPage.tsx:56-72 | starting from a non-premium theme, no apply makes a premium theme active |
| Themes.ButtonLabel | src/pages/dashboard/ThemesPage.tsx:126-130 | "Applied" for the active theme, else "Upgrade to Use" for a premium one, else "Apply Theme" |
| Themes.ThemesPage.constructor | src/pages/dashboard/ThemesPage.tsx:23 | the active theme starts as "minimal" |
| Themes.ThemesPage.ApplyTheme | src/pages/dashboard/ThemesPage.tsx:56-72 | the active theme and toast become those of `Apply` |
| Overview.InitialStatsZero | src/pages/dashboard/DashboardOverview.tsx:35-51 | all three statistics start at "0" and have distinct titles |
| Overview.FindByTitle | src/pages/dashboard/DashboardOverview.tsx:66-67 | the first data item with the title, or none iff no item has it |
| Overview.MergeStats | src/pages/dashboard/DashboardOverview.tsx:64-69 | length, order, titles and icons are kept; a value becomes that of the first item with its title and is kept when none has it |
| Overview.MergeEmptyAndIdempotent | src/pages/dashboard/DashboardOverview.tsx:64-69 | merging no data changes nothing, and merging the same data twice is merging it once |
| Overview.FullReplyFillsAll | src/pages/dashboard/DashboardOverview.tsx:35-69 | a reply naming the three titles fills all three values |
| Overview.ValueLabel | src/pages/dashboard/DashboardOverview.tsx:118-119 | only "Engagement Rate" is shown with a "%" suffix |
| Overview.OverviewPage.constructor | src/pages/dashboard/DashboardOverview.tsx:34-51 | the statistics start at their initial values, loading |
| Overview.OverviewPage.FetchStats | src/pages/dashboard/DashboardOverview.tsx:53-82 | a reply merges into the statistics, a failure keeps them; `loading` ends false |
| PageList.FetchedPages | src/pages/dashboard/pages/Listpages.tsx:40-60 | an array reply gives its pages; a non-array reply or a failure gives none |
| PageList.WithoutPage | src/pages/dashboard/pages/Listpages.tsx:76 | the result holds exactly the pages with another id |
| PageList.WithoutPageOrder | src/pages/dashboard/pages/Listpages.tsx:76 | deletion keeps the order of the remaining pages and leaves a list without that id unchanged |
| PageList.EmptyAfterDelete | src/pages/dashboard/pages/Listpages.tsx:77-79 | the empty flag is set iff it was set or the list held one page before the delete, whether or not the id matched |
| PageList.DeleteEmptyState | src/pages/dashboard/pages/Listpages.tsx:76-79 | deleting the last page shows the empty state; deleting another id from a one-page list also shows it while the page is still in the list |
| PageList.NewPage | src/pages/dashboard/pages/Listpages.tsx:102-108 | a created page has the untrimmed title, the given id and date, and no slug |
| PageList.ViewTarget | src/pages/dashboard/pages/Listpages.tsx:174-176 | clicking a page card leads to "/" followed by the page's username, "/undefined" when it has none |
| PageList.EditTarget | src/pages/dashboard/pages/Listpages.tsx:212 | the editor address is "/edit-page/" followed by the id |
| PageList.ListPages.constructor | src/pages/dashboard/pages/Listpages.tsx:34-38 | no pages, not empty, dialog closed, empty title, loading |
| PageList.ListPages.Fetch | src/pages/dashboard/pages/Listpages.tsx:40-60 | the pages become `FetchedPages` of the reply and `loading` ends false |
| PageList.ListPages.DeletePage | src/pages/dashboard/pages/Listpages.tsx:71-80 | the pages become `WithoutPage` and the flag `EmptyAfterDelete` of the old state |
| PageList.ListPages.OpenDialog | src/pages/dashboard/pages/Listpages.tsx:160 | the empty state's button opens the dialog and nothing else changes |
| PageList.ListPages.CreatePage | src/pages/dashboard/pages/Listpages.tsx:92-117 | a blank title (`trim` leaves nothing) creates nothing; otherwise one page is appended, the empty flag cleared, the title cleared and the dialog closed |
| PageList.StaleDeleteHidesPage | src/pages/dashboard/pages/Listpages.tsx:71-80 | deleting an absent id from a one-page list keeps the page yet shows the empty state |
| PagesCard.ViewOf | src/components/dashboard/DashboardPagesCard.tsx:107-119 | loading first; then no pages gives the no-pages view; otherwise the table of the pages |
| PagesCard.RowsLeadToEditor | src/components/dashboard/DashboardPagesCard.tsx:65-68 | every row of the table leads to "/edit-page/" and its id |
| PagesCard.DashboardPagesCard.constructor | src/components/dashboard/DashboardPagesCard.tsx:58-59 | no pages, loading |
| PagesCard.DashboardPagesCard.Fetch | src/components/dashboard/DashboardPagesCard.tsx:86-105 | a non-array reply or a failure gives no pages; `loading` ends false |
| PagesCard.FailedFetchShowsNoPages | src/components/dashboard/DashboardPagesCard.tsx:86-119 | a failed fetch ends on the no-pages view |
| LinksManagement.WithoutLink | src/pages/dashboard/LinksManagement.tsx:48-49 | the result holds exactly the links with another id |
| LinksManagement.WithoutLinkProperties | src/pages/dashboard/LinksManagement.tsx:48-49 | deletion keeps order, leaves the list alone for an absent id and shrinks it for a present one |
| LinksManagement.DeleteSampleLink | src/pages/dashboard/LinksManagement.tsx:24-49 | deleting "2" from the three samples leaves the first and third; deleting "4" changes nothing |
| LinksManagement.LinksScreen.constructor | src/pages/dashboard/LinksManagement.tsx:24-46 | the list starts as the three samples |
| LinksManagement.LinksScreen.DeleteLink | src/pages/dashboard/LinksManagement.tsx:48-54 | the list becomes `WithoutLink` and the toast is "Link deleted" |
| LinksManagement.LinksScreen.AddNewLink | src/pages/dashboard/LinksManagement.tsx:56-61 | only the "Add link feature" toast; the list does not change |
| LinksManagement.DeleteAllSamples | src/pages/dashboard/LinksManagement.tsx:48-54 | deleting the three samples in turn shows the empty state |
| AnalyticsCard.FoldClicks | src/components/AnalyticsCard.tsx:19-22 | folding no links gives the start value; with no negative click counts the fold never goes below it |
| AnalyticsCard.FoldIsTotal | src/components/AnalyticsCard.tsx:19-22 | the left fold of the `reduce`, started at any value, adds exactly the click total to it |
| AnalyticsCard.LinkClicksShown | src/components/AnalyticsCard.tsx:19-22 | the shown total equals the click sum with missing counts as 0, and is 0 for no links |
| AnalyticsCard.LinkClicksOfConcatenation | src/components/AnalyticsCard.tsx:19-22 | the total over two link lists put together is the sum of their totals |
| AnalyticsCard.ViewsShown | src/components/AnalyticsCard.tsx:33 | the page's views, or 0 when missing |
| Signup.Validate | src/pages/Signup.tsx:33-52 | each field has an error iff its rule fails (name ≥ 2, a valid email, password ≥ 8, confirmation equal to the password, terms accepted), with its own message |
| Signup.DefaultFormErrors | src/pages/Signup.tsx:33-52 | submitting the untouched form reports name, email, password and terms but not the (equal, empty) passwords |
| Signup.ValidIff | src/pages/Signup.tsx:33-52 | the form is valid iff all five rules hold |
| Signup.Payload | src/pages/Signup.tsx:99-103 | the request sends name, email and password |
| Signup.PayloadIgnoresConfirmation | src/pages/Signup.tsx:99-103 | the confirmation and terms never reach the request |
| Signup.SignupPage.constructor | src/pages/Signup.tsx:78 | not loading |
| Signup.SignupPage.Submit | src/pages/Signup.tsx:92-128 | a request is sent iff the form is valid, carrying the payload; `isLoading` ends false after it; success alone leads to /dashboard |
| Login.Validate | src/pages/Login.tsx:33-41 | the email has an error iff it is not a valid email; the password iff it is empty |
| Login.RememberMeIrrelevant | src/pages/Login.tsx:40 | remember-me never affects validation |
| Login.LoginPage.constructor | src/pages/Login.tsx:52-53 | not loading, password hidden |
| Login.LoginPage.TogglePasswordVisibility | src/pages/Login.tsx:99-101 | the flag is flipped |
| Login.LoginPage.Submit | src/pages/Login.tsx:74-97 | credentials are sent iff the form is valid; success keeps `isLoading` set and leads to /dashboard; failure clears it |
| Login.ToggleTwice | src/pages/Login.tsx:99-101 | two toggles restore the flag |
| AuthContext.CheckedUser | src/context/AuthContext.tsx:42-69 | the user is set iff the reply is authenticated and carries one; otherwise it is cleared |
| AuthContext.CheckNavigation | src/context/AuthContext.tsx:53-57 | the check navigates, to "/setup", iff the user is set and has not completed setup |
| AuthContext.LoginTarget | src/context/AuthContext.tsx:80 | "/dashboard" iff setup is complete, else "/setup" |
| AuthContext.CheckAndLoginAgreeOnSetup | src/context/AuthContext.tsx:53-57 | for a user without setup the check and the login navigate to the same place |
| AuthContext.AuthProvider.constructor | src/context/AuthContext.tsx:37-38 | no user, loading |
| AuthContext.AuthProvider.CheckAuth | src/context/AuthContext.tsx:42-69 | the user becomes `CheckedUser` of the reply, the navigation `CheckNavigation`; `loading` ends false |
| AuthContext.AuthProvider.Login | src/context/AuthContext.tsx:72-85 | success sets the user and navigates by `LoginTarget`; failure throws the reply body's `error` or "Login failed" and keeps the user |
| AuthContext.AuthProvider.Logout | src/context/AuthContext.tsx:87-97 | success clears the user and navigates to /login; failure changes nothing |
| ProtectedRoute.Gate | src/context/ProtectedRoute.tsx:10-32 | no provider throws; loading shows the loading view; no user redirects to /login replacing history with the current path as `from`; otherwise the children render |
| ProtectedRoute.ReadyProviderNeverLoads | src/context/AuthContext.tsx:104 | inside a provider that renders its children the gate never shows loading and renders iff a user is set |
| ProtectedRoute.GateAfterCheck | src/context/ProtectedRoute.tsx:10-32 | after the first check the route renders iff the reply was authenticated with a user, and otherwise redirects to /login |

## Left out

- HTTP, the backend and cookies: each request is modelled by its payload and each reply is a parameter; the network, timing and retries are not modelled.
- Toast descriptions, console output, rendering and JSX, animations and icons are not modelled.
- Toast titles are modelled only for the visibility switch (`EditPage.EditPageState.ChangeVisibility`), the settings picture upload (`ProfileSettings.PicUpload`), the themes page (`Themes.Apply`), the links screen (`LinksManagement.LinksScreen`), the share sheet's social buttons (`ShareDialog.SocialShare`) and the success card (`SuccessCard.Press`); the portfolio's link click records only that a toast is shown. The fixed success and failure titles of the other handlers are not modelled: `EditPage.EditPageState.Save` and `Load`, `CreatePage.CreatePageState.Publish` and `Load`, `Signup.SignupPage.Submit`, `ProfileSettings.SettingsPage.Load` and `HandleSaveChanges`, `PageList.ListPages.DeletePage` and `CreatePage`, `Portfolio.PortfolioPage.Fetch`, `BackgroundDialog.Upload`, `ShareDialog.ShareSheet.CopyLink`, and the wizard's `SubmitUsername` and `CompleteSetup`.
- Browser effects are returned as values: `window.open`, the clipboard, `window.location` and `navigate` targets. `URL.createObjectURL` and the wizard's image preview are not modelled.
- Timers are events: ShareDialog's `copied` reset is the method `CopiedTimerFired`; Login's delayed redirect is the returned redirect target.
- `Date.now()` and today's date are string parameters (`now`, `today`); a social link's `Date.now()` id is the `stamp` parameter.
- Library behaviour is stated as a rule, not reproduced: zod and react-hook-form are modelled as the per-field rules plus the form-level refine, assuming zod 3, where the refine still runs after field errors that do not abort; each field shows its first message.
- Email validity (`z.string().email()`) and `encodeURIComponent` are function-valued parameters.
- Common.Lower: lowercases ASCII letters only; JavaScript's `toLowerCase` also maps non-ASCII capitals.
- String lengths are counted in characters; JavaScript counts UTF-16 code units, which differ for characters outside the Basic Multilingual Plane.
- `Intl.DateTimeFormat` (`formatDateIntl`) is not modelled; created pages carry the date string as given.
- Page, link and social-link ids are strings or integers chosen per screen; JavaScript's loose mixing of number and string ids is not modelled.
- AuthContext.AuthProvider.Login: a 2xx log-in reply without a `user` object is not modelled; in the source it sets the user to undefined, then fails reading `isSetupComplete` and throws "Login failed". The reply type always carries a user.
- A page reply without its `user` object is not modelled; the model always has the user's fields. In the source the editor then always throws a TypeError, since it reads the user's picture unconditionally (src/pages/EditPage.tsx:159), while the creator throws only when the page's own bio is empty, since `pageData.bio || pageData.user.bio` reads the user only then (src/pages/CreatePage.tsx:156).
- Replies missing a field the source's interfaces declare required are not modelled: a profile reply without `socialLinks` or `displayName` makes the public profile page throw (src/pages/PortfolioCard.tsx:109 and 170), and a page-info reply without `username` makes the creator throw when it builds the success link and card (src/pages/CreatePage.tsx:127 and 483).
- EditPage.EditPageState.Load: the username, default flag, display name, picture, view and click counters that the editor also loads are not modelled, nor the props it hands to the share sheet.
- CreatePage: the unused `copyToClipboard` helper and the background dialog's wiring are not modelled.
- ProfileSetup: the mount-time redirect of a user who has completed setup to /dashboard is not modelled.
- The page list screen renders no control that calls the create handler or types a title (only the empty state's button opens the dialog), so the handler is modelled over whatever title the state holds.
- Signup: the `?error=` query parameter and the GitHub and Google sign-in redirects are not modelled.
- AnalyticsCard: a link list that is not an array is not modelled.
- ProfileSetup.Wizard.SubmitProfilePicture: a 2xx upload reply without a `url` field is not modelled; the source then stores `undefined` as the picture and still moves to the bio step. The upload reply is a `Reply<string>`.
- ProfileSettings.PicUpload: a reply without a `url` field is not modelled; the upload reply is a `Reply<string>`.
- ShareDialog: the download button, which only shows a toast, is not modelled.
- Portfolio: the page's username and slug are route parameters; a missing username is written "undefined" like the source's template literal.
- Pure presentation and static screens (landing page, help page, dashboard layout, analytics charts, waitlist) are not part of this model.

## Findings

| source | as written | input that shows it | evidently intended | confidence | as-written member | corrected member |
|---|---|---|---|---|---|---|
| src/components/ProfileSetupWizard.tsx:545-548 | after the image check, the input's change handler hands the chosen file to the picture form even when the check refused it, and the form's resolver only asks for a `File` | a 10 MB PNG, or a GIF: the error line appears, yet "Next" uploads the file and moves to the bio step | a refused file is not held by the form, so submitting asks for a valid image and sends nothing | medium (not executed) | ProfileSetup.Wizard.ChooseImage, ProfileSetup.RefusedFileUploadedAsWritten | ProfileSetup.Wizard.ChooseImageChecked, ProfileSetup.RefusedFileNeverUploaded |
| src/components/SocialLinksDialog.tsx:93-98 | the filter tests `platform.platform`, a field the `{id, label}` options do not have, so every option is offered | a list holding a GitHub link: GitHub is still offered, and choosing it adds nothing | offer exactly the platforms not yet in the list | high (not executed) | SocialLinks.UnusedPlatformsAsWritten, SocialLinks.AsWrittenOffersUsedPlatform | SocialLinks.UnusedPlatforms, SocialLinks.UnusedPlatformsMatchAdd |

=== FILE: analytics_card.dfy ===
/** The analytics card: the page's view count and the sum of its links'
    click counts, computed by a left fold. */
module AnalyticsCard {
  import opened Common
  import opened PageEditor

  datatype Page = Page(views: Option<int>, links: seq<PageLink>)

  /** `links.reduce((total, link) => total + (link.clicks || 0), acc)`. */
  function FoldClicks(acc: int, links: seq<PageLink>): (r: int)
    ensures links == [] ==> r == acc
    ensures (forall i :: 0 <= i < |links| ==> Clicks(links[i]) >= 0) ==> r >= acc
    decreases links
  {
    if links == [] then acc else FoldClicks(acc + Clicks(links[0]), links[1..])
  }

  /** The fold adds exactly the click total to its start value. */
  lemma {:induction false} FoldIsTotal(acc: int, links: seq<PageLink>)
    ensures FoldClicks(acc, links) == acc + TotalLinkClicks(links)
    decreases links
  {
    if links != [] {
      FoldIsTotal(acc + Clicks(links[0]), links[1..]);
    }
  }

  /** The "Link Clicks" figure: the fold from 0, which is the click total of
      the links, so the editor and the card agree; no links give 0, and the
      figure of two lists put together is the sum of their figures. */
  function LinkClicksShown(page: Page): (n: int)
    ensures n == TotalLinkClicks(page.links)
    ensures page.links == [] ==> n == 0
  {
    FoldIsTotal(0, page.links);
    FoldClicks(0, page.links)
  }

  lemma LinkClicksOfConcatenation(a: Page, b: Page)
    ensures LinkClicksShown(Page(a.views, a.links + b.links)) == LinkClicksShown(a) + LinkClicksShown(b)
  {
    TotalLinkClicksAppend(a.links, b.links);
  }

  /** `page.views || 0`. */
  function ViewsShown(page: Page): (n: int)
    ensures page.views.Some? ==> n == page.views.value
    ensures page.views.None? ==> n == 0
  {
    if page.views.Some? && page.views.value != 0 then page.views.value else 0
  }
}

=== FILE: auth_context.dfy ===
/** The authentication context: the signed-in user and a loading flag that
    the initial check clears; login and logout change the user and say where
    to navigate. */
module AuthContext {
  import opened Common

  datatype User = User(id: string, name: string, email: string, isSetupComplete: bool)

  /** What the context provides to the routes below it. */
  datatype AuthState = AuthState(user: Option<User>, loading: bool)

  /** The reply of `GET /api/user/isAuthenticated`. */
  datatype AuthReply = AuthReply(isAuthenticated: bool, user: Option<User>)

  /** The user after the initial check: the reply's user when it is
      authenticated and carries one; nobody otherwise, or after an error. */
  function CheckedUser(reply: Reply<AuthReply>): (u: Option<User>)
    ensures u.Some? <==> reply.Ok? && reply.value.isAuthenticated && reply.value.user.Some?
    ensures u.Some? ==> u == reply.value.user
  {
    if reply.Ok? && reply.value.isAuthenticated && reply.value.user.Some? then reply.value.user else None
  }

  /** Where the initial check navigates: to setup exactly when a user was
      set whose setup is not complete. */
  function CheckNavigation(reply: Reply<AuthReply>): (nav: Option<string>)
    ensures nav.Some? <==> CheckedUser(reply).Some? && !CheckedUser(reply).value.isSetupComplete
    ensures nav.Some? ==> nav.value == "/setup"
  {
    var u := CheckedUser(reply);
    if u.Some? && !u.value.isSetupComplete then Some("/setup") else None
  }

  /** Where a successful login navigates. */
  function LoginTarget(u: User): (nav: string)
    ensures nav == "/dashboard" <==> u.isSetupComplete
    ensures nav == "/setup" <==> !u.isSetupComplete
  {
    if u.isSetupComplete then "/dashboard" else "/setup"
  }

  /** The check and a login send the same user to the same place when its
      setup is not complete. */
  lemma CheckAndLoginAgreeOnSetup(u: User)
    requires !u.isSetupComplete
    ensures CheckNavigation(Ok(AuthReply(true, Some(u)))) == Some(LoginTarget(u))
  {
  }

  /** The provider renders its children only once the check is over. */
  predicate RendersChildren(s: AuthState)
  {
    !s.loading
  }

  class AuthProvider {
    var user: Option<User>
    var loading: bool

    constructor ()
      ensures user.None? && loading
    {
      user := None;
      loading := true;
    }

    function State(): AuthState
      reads this
    {
      AuthState(user, loading)
    }

    method CheckAuth(reply: Reply<AuthReply>) returns (nav: Option<string>)
      modifies this
      ensures user == CheckedUser(reply) && nav == CheckNavigation(reply)
      ensures !loading
    {
      user := CheckedUser(reply);
      nav := CheckNavigation(reply);
      loading := false;
    }

    /** A login: success sets the user and navigates; failure throws with
        the server's error or "Login failed" and leaves the user. */
    method Login(reply: Reply<User>) returns (nav: Option<string>, thrown: Option<string>)
      modifies this
      ensures reply.Ok? ==> user == Some(reply.value) && nav == Some(LoginTarget(reply.value)) && thrown.None?
      ensures reply.Failed? ==> (user == old(user) && nav.None? &&
                                 thrown == Some(Or(reply.serverError, "Login failed")))
      ensures loading == old(loading)
    {
      match reply {
        case Ok(u) =>
          user := Some(u);
          nav, thrown := Some(LoginTarget(u)), None;
        case Failed(msg) =>
          nav, thrown := None, Some(Or(msg, "Login failed"));
      }
    }

    /** A logout clears the user and goes to the login page only when the
        request succeeds; a failure changes nothing. */
    method Logout(reply: Reply<()>) returns (nav: Option<string>)
      modifies this
      ensures reply.Ok? ==> user.None? && nav == Some("/login")
      ensures reply.Failed? ==> user == old(user) && nav.None?
      ensures loading == old(loading)
    {
      if reply.Ok? {
        user := None;
        nav := Some("/login");
      } else {
        nav := None;
      }
    }
  }
}

=== FILE: background_dialog.dfy ===
/** The background picker: a list of colour and image options that starts
    with ten built-in entries and grows by one entry for each uploaded
    image. The chosen value belongs to the page being edited and is passed
    in and handed back. */
module BackgroundDialog {
  import opened Common

  /** An option carries a colour class, an image url, or (as far as the
      types go) either. */
  datatype BgOption = BgOption(id: string, color: Option<string>, image: Option<string>)

  const InitialOptions: seq<BgOption> := [
    BgOption("blue", Some("bg-blue-100"), None),
    BgOption("purple", Some("bg-purple-100"), None),
    BgOption("pink", Some("bg-pink-100"), None),
    BgOption("green", Some("bg-green-100"), None),
    BgOption("yellow", Some("bg-yellow-100"), None),
    BgOption("gray", Some("bg-gray-100"), None),
    BgOption("Default", Some("bg-gradient-to-r from-blue-500 to-pink-500"), None),
    BgOption("custom1", None, Some("https://res.cloudinary.com/dfyafvaae/image/upload/v1745518430/pexels-eberhardgross-1367105_2_ampir7.jpg")),
    BgOption("custom2", None, Some("https://res.cloudinary.com/dfyafvaae/image/upload/v1745518438/pexels-hngstrm-1939485_sfjuqw.jpg")),
    BgOption("custom3", None, Some("https://res.cloudinary.com/dfyafvaae/image/upload/v1745518443/pexels-fwstudio-33348-129731_yd8le7.jpg"))
  ]

  function CountColors(opts: seq<BgOption>): (n: nat)
    ensures n <= |opts|
  {
    if opts == [] then 0 else (if opts[0].color.Some? then 1 else 0) + CountColors(opts[1..])
  }

  function CountImages(opts: seq<BgOption>): (n: nat)
    ensures n <= |opts|
  {
    if opts == [] then 0 else (if opts[0].image.Some? then 1 else 0) + CountImages(opts[1..])
  }

  /** Both counts distribute over concatenation. */
  lemma {:induction false} CountsAppend(a: seq<BgOption>, b: seq<BgOption>)
    ensures CountColors(a + b) == CountColors(a) + CountColors(b)
    ensures CountImages(a + b) == CountImages(a) + CountImages(b)
  {
    if a == [] {
      assert a + b == b;
    } else {
      assert (a + b)[0] == a[0];
      assert (a + b)[1..] == a[1..] + b;
      CountsAppend(a[1..], b);
    }
  }

  /** Ten built-in options: seven colour classes and three images, each
      option carrying exactly one of the two. */
  lemma InitialOptionsShape()
    ensures |InitialOptions| == 10
    ensures CountColors(InitialOptions) == 7 && CountImages(InitialOptions) == 3
    ensures forall i :: 0 <= i < |InitialOptions| ==> InitialOptions[i].color.Some? != InitialOptions[i].image.Some?
  {
  }

  /** `option.image || option.color || ""`: the value clicking an option
      hands back. */
  function ChoiceValue(o: BgOption): (v: string)
    ensures Truthy(o.image) ==> v == o.image.value
    ensures !Truthy(o.image) && Truthy(o.color) ==> v == o.color.value
    ensures !Truthy(o.image) && !Truthy(o.color) ==> v == ""
  {
    Or(o.image, Or(o.color, ""))
  }

  /** An option is marked (ring and check mark) when the background equals
      its image or its colour; a missing one never equals a string. */
  predicate IsSelected(background: string, o: BgOption)
  {
    (o.image.Some? && background == o.image.value) || (o.color.Some? && background == o.color.value)
  }

  /** Clicking an option that has a non-empty image or colour marks it. */
  lemma ChosenIsSelected(o: BgOption)
    requires Truthy(o.image) || Truthy(o.color)
    ensures IsSelected(ChoiceValue(o), o)
  {
  }

  /** Among the built-in options, clicking one marks that one and no other. */
  lemma InitialChoiceMarksOnlyItself(k: nat, j: nat)
    requires k < |InitialOptions| && j < |InitialOptions|
    ensures IsSelected(ChoiceValue(InitialOptions[k]), InitialOptions[j]) <==> j == k
  {
  }

  /** What an upload leads to: the background and the option list afterwards. */
  datatype UploadResult = UploadResult(background: string, options: seq<BgOption>)

  /** `handleFileUpload`: no file, a failed request or a reply without a
      url leaves both as they were; a url becomes the background and is
      appended as a new image option whose id carries the upload time. */
  function Upload(background: string, options: seq<BgOption>, file: bool,
                  reply: Reply<Option<string>>, now: string): (r: UploadResult)
    ensures !(file && reply.Ok? && Truthy(reply.value)) ==> r == UploadResult(background, options)
    ensures file && reply.Ok? && Truthy(reply.value) ==> (
      r.background == reply.value.value &&
      |r.options| == |options| + 1 && r.options[..|options|] == options &&
      r.options[|options|] == BgOption("custom-" + now, None, reply.value))
  {
    if file && reply.Ok? && Truthy(reply.value) then
      UploadResult(reply.value.value, options + [BgOption("custom-" + now, None, reply.value)])
    else UploadResult(background, options)
  }

  /** A freshly uploaded image is the marked option. */
  lemma UploadedIsSelected(background: string, options: seq<BgOption>, url: string, now: string)
    requires url != ""
    ensures var r := Upload(background, options, true, Ok(Some(url)), now);
            IsSelected(r.background, r.options[|r.options| - 1])
  {
  }

  /** A successful upload adds exactly one image option and no colour
      option; any other outcome changes neither count. */
  lemma UploadCounts(background: string, options: seq<BgOption>, file: bool,
                     reply: Reply<Option<string>>, now: string)
    ensures var r := Upload(background, options, file, reply, now);
            if file && reply.Ok? && Truthy(reply.value)
            then CountImages(r.options) == CountImages(options) + 1 &&
                 CountColors(r.options) == CountColors(options)
            else CountImages(r.options) == CountImages(options) &&
                 CountColors(r.options) == CountColors(options)
  {
    if file && reply.Ok? && Truthy(reply.value) {
      CountsAppend(options, [BgOption("custom-" + now, None, reply.value)]);
    }
  }

  /** After `n` successful uploads from the built-in list the picker holds
      seven colours and `3 + n` images. */
  lemma {:induction false} UploadsFromInitial(options: seq<BgOption>, added: seq<BgOption>)
    requires options == InitialOptions + added
    requires forall i :: 0 <= i < |added| ==> added[i].image.Some? && added[i].color.None?
    ensures CountColors(options) == 7 && CountImages(options) == 3 + |added|
  {
    CountsAppend(InitialOptions, added);
    AddedImages(added);
  }

  lemma {:induction false} AddedImages(added: seq<BgOption>)
    requires forall i :: 0 <= i < |added| ==> added[i].image.Some? && added[i].color.None?
    ensures CountColors(added) == 0 && CountImages(added) == |added|
  {
    if added != [] {
      AddedImages(added[1..]);
    }
  }

  class BackgroundPicker {
    var options: seq<BgOption>
    /** The page's background, owned by the parent screen. */
    var background: string

    constructor (background: string)
      ensures options == InitialOptions && this.background == background
    {
      options := InitialOptions;
      this.background := background;
    }

    method Choose(k: nat)
      requires k < |options|
      modifies this
      ensures background == ChoiceValue(old(options)[k]) && options == old(options)
    {
      background := ChoiceValue(options[k]);
    }

    method UploadFile(file: bool, reply: Reply<Option<string>>, now: string)
      modifies this
      ensures UploadResult(background, options) == Upload(old(background), old(options), file, reply, now)
    {
      var r := Upload(background, options, file, reply, now);
      background := r.background;
      options := r.options;
    }
  }
}

=== FILE: backgrounds.dfy ===
/** How a page's `background` string is rendered. The editor, the page
    creator and the public profile all apply the same three-way rule: a value
    starting with "bg-" is a colour class, any other non-empty value is an
    image url, and an empty or missing value gives the default gradient. */
module Backgrounds {
  import opened Common

  datatype Kind = ColorClass(cls: string) | ImageUrl(url: string) | DefaultGradient

  const GradientClass := "bg-gradient-to-r from-blue-500 to-pink-500"

  function Classify(bg: Option<string>): (k: Kind)
    ensures k.DefaultGradient? <==> !Truthy(bg)
    ensures k.ColorClass? <==> Truthy(bg) && StartsWith(bg.value, "bg-")
    ensures k.ImageUrl? <==> Truthy(bg) && !StartsWith(bg.value, "bg-")
    ensures k.ColorClass? ==> k.cls == bg.value
    ensures k.ImageUrl? ==> k.url == bg.value
  {
    if !Truthy(bg) then DefaultGradient
    else if StartsWith(bg.value, "bg-") then ColorClass(bg.value)
    else ImageUrl(bg.value)
  }

  /** The props spread on the preview element: its class list, and for an
      image the CSS `background-image` value (the editors also set the size
      to cover and the position to center). */
  datatype Style = Style(className: string, image: Option<string>, coverCentered: bool)

  const EditorBase := "w-full rounded-lg overflow-hidden aspect-[9/16] relative mb-4 flex flex-col items-center"
  const ProfileBase := "min-h-screen w-full bg-cover bg-center bg-no-repeat flex items-center justify-center py-8 px-4"

  function StyleFor(base: string, k: Kind, cover: bool): Style
  {
    match k
    case ColorClass(c) => Style(base + " " + c, None, false)
    case ImageUrl(u) => Style(base, Some("url(" + u + ")"), cover)
    case DefaultGradient => Style(base + " " + GradientClass, None, false)
  }

  /** `getBackgroundStyle` of the page editor and of the page creator. */
  function EditorStyle(bg: string): (s: Style)
    ensures s.image.Some? <==> bg != "" && !StartsWith(bg, "bg-")
    ensures s.image.Some? ==> s.image.value == "url(" + bg + ")" && s.className == EditorBase && s.coverCentered
    ensures StartsWith(bg, "bg-") ==> s.className == EditorBase + " " + bg
    ensures bg == "" ==> s.className == EditorBase + " " + GradientClass
  {
    StyleFor(EditorBase, Classify(Some(bg)), true)
  }

  /** `getBackgroundStyle` of the public profile; the background is missing
      when there is no page data. */
  function ProfileStyle(bg: Option<string>): (s: Style)
    ensures s.image.Some? <==> Truthy(bg) && !StartsWith(bg.value, "bg-")
    ensures s.image.Some? ==> s.image.value == "url(" + bg.value + ")" && s.className == ProfileBase && !s.coverCentered
    ensures Truthy(bg) && StartsWith(bg.value, "bg-") ==> s.className == ProfileBase + " " + bg.value
    ensures !Truthy(bg) ==> s.className == ProfileBase + " " + GradientClass
  {
    StyleFor(ProfileBase, Classify(bg), false)
  }

  /** The editor preview and the public profile agree on the kind of
      background and on the image url: they differ only in the base classes
      and in the size and position of an image. */
  lemma EditorAgreesWithProfile(bg: string)
    ensures EditorStyle(bg).image == ProfileStyle(Some(bg)).image
    ensures EditorStyle(bg).image.None? ==>
      EditorStyle(bg).className[|EditorBase|..] == ProfileStyle(Some(bg)).className[|ProfileBase|..]
  {
  }
}

=== FILE: common.dfy ===
/** Values and helpers shared by every component model: optional values, the
    outcome of an HTTP call, the JavaScript string operations the components
    use (truthiness, `||`, `startsWith`, whitespace, template interpolation),
    and filtering of lists. */
module Common {

  /** A value that may be `undefined`/`null` in the original program. */
  datatype Option<+T> = None | Some(value: T)

  /** The outcome of one HTTP call: the reply body on a 2xx status, or the
      error text the server put in its reply body (absent when there was no
      reply or no such field). */
  datatype Reply<+T> = Ok(value: T) | Failed(serverError: Option<string>)

  /** A field of a server reply whose type the client does not control:
      a string, or any other JSON value. */
  datatype Json = JString(s: string) | JOther

  /** JavaScript truthiness of an optional string: defined and non-empty. */
  predicate Truthy(o: Option<string>)
  {
    o.Some? && o.value != ""
  }

  /** `a || b` on an optional string with a string fallback. */
  function Or(a: Option<string>, b: string): (r: string)
    ensures Truthy(a) ==> r == a.value
    ensures !Truthy(a) ==> r == b
  {
    if Truthy(a) then a.value else b
  }

  /** `${x}` inside a template literal: an undefined value prints as "undefined". */
  function Interp(o: Option<string>): (r: string)
    ensures o.Some? ==> r == o.value
    ensures o.None? ==> r == "undefined"
  {
    match o
    case Some(s) => s
    case None => "undefined"
  }

  /** `s.startsWith(prefix)`. */
  predicate StartsWith(s: string, prefix: string)
  {
    prefix <= s
  }

  /** The characters JavaScript's `\s` and `String.prototype.trim` treat as
      white space (ECMAScript WhiteSpace and LineTerminator). */
  predicate IsJsSpace(c: char)
  {
    var n := c as int;
    n == 0x09 || n == 0x0A || n == 0x0B || n == 0x0C || n == 0x0D || n == 0x20 ||
    n == 0xA0 || n == 0x1680 || (0x2000 <= n <= 0x200A) || n == 0x2028 ||
    n == 0x2029 || n == 0x202F || n == 0x205F || n == 0x3000 || n == 0xFEFF
  }

  /** `!s.trim()`: the string is empty once leading and trailing white space is gone. */
  predicate IsBlank(s: string)
  {
    forall i :: 0 <= i < |s| ==> IsJsSpace(s[i])
  }

  /** The test `s.replace(/\s+/g, "")` applies to each character: kept when not white space. */
  predicate NotSpace(c: char)
  {
    !IsJsSpace(c)
  }

  /** `s.replace(/\s+/g, "")`: every white-space character removed, the rest kept in order. */
  function StripSpaces(s: string): (r: string)
    ensures |r| <= |s|
    ensures forall c :: c in r <==> c in s && !IsJsSpace(c)
    ensures (forall i :: 0 <= i < |s| ==> !IsJsSpace(s[i])) ==> r == s
  {
    if s == [] then []
    else if IsJsSpace(s[0]) then StripSpaces(s[1..])
    else assert [s[0]] + s[1..] == s; [s[0]] + StripSpaces(s[1..])
  }

  /** Removing white space is filtering the characters by `NotSpace`. */
  lemma {:induction false} StripSpacesIsFilter(s: string)
    ensures StripSpaces(s) == Filter(s, NotSpace)
  {
    if s != [] {
      StripSpacesIsFilter(s[1..]);
    }
  }

  /** Removing white space distributes over concatenation. */
  lemma StripSpacesAppend(a: string, b: string)
    ensures StripSpaces(a + b) == StripSpaces(a) + StripSpaces(b)
  {
    StripSpacesIsFilter(a + b);
    StripSpacesIsFilter(a);
    StripSpacesIsFilter(b);
    FilterAppend(a, b, NotSpace);
  }

  predicate IsAsciiUpper(c: char)
  {
    'A' <= c <= 'Z'
  }

  /** `c.toLowerCase()` restricted to the ASCII letters. */
  function LowerChar(c: char): (r: char)
    ensures !IsAsciiUpper(r)
    ensures IsJsSpace(r) <==> IsJsSpace(c)
    ensures !IsAsciiUpper(c) ==> r == c
    ensures IsAsciiUpper(c) ==> r as int == c as int + 32
  {
    if IsAsciiUpper(c) then (c as int + 32) as char else c
  }

  /** `s.toLowerCase()` restricted to the ASCII letters. */
  function Lower(s: string): (r: string)
    ensures |r| == |s|
    ensures forall i :: 0 <= i < |s| ==> r[i] == LowerChar(s[i])
    ensures (forall i :: 0 <= i < |s| ==> !IsAsciiUpper(s[i])) ==> r == s
  {
    if s == [] then [] else [LowerChar(s[0])] + Lower(s[1..])
  }

  /** Lower-casing distributes over concatenation. */
  lemma LowerAppend(a: string, b: string)
    ensures Lower(a + b) == Lower(a) + Lower(b)
  {
    assert forall i :: 0 <= i < |a + b| ==> Lower(a + b)[i] == (Lower(a) + Lower(b))[i];
  }

  /** Lower-casing twice is lower-casing once. */
  lemma LowerIdempotent(s: string)
    ensures Lower(Lower(s)) == Lower(s)
  {
  }

  /** Removing white space and lower-casing can be done in either order. */
  lemma {:induction false} StripLowerCommute(s: string)
    ensures StripSpaces(Lower(s)) == Lower(StripSpaces(s))
  {
    if s != [] {
      StripLowerCommute(s[1..]);
      assert s == [s[0]] + s[1..];
      LowerAppend([s[0]], s[1..]);
      StripSpacesAppend(Lower([s[0]]), Lower(s[1..]));
      StripSpacesAppend([s[0]], s[1..]);
      LowerAppend(StripSpaces([s[0]]), StripSpaces(s[1..]));
    }
  }

  /** `xs.filter(keep)`: the elements satisfying `keep`, in their original order. */
  function Filter<T(!new)>(xs: seq<T>, keep: T -> bool): (r: seq<T>)
    ensures |r| <= |xs|
    ensures forall x :: x in r <==> x in xs && keep(x)
  {
    if xs == [] then []
    else if keep(xs[0]) then [xs[0]] + Filter(xs[1..], keep)
    else Filter(xs[1..], keep)
  }

  /** Filtering distributes over concatenation, so the kept elements stay in order. */
  lemma {:induction false} FilterAppend<T(!new)>(a: seq<T>, b: seq<T>, keep: T -> bool)
    ensures Filter(a + b, keep) == Filter(a, keep) + Filter(b, keep)
  {
    if a == [] {
      assert a + b == b;
    } else {
      assert (a + b)[0] == a[0];
      assert (a + b)[1..] == a[1..] + b;
      FilterAppend(a[1..], b, keep);
    }
  }

  /** Filtering a list whose every element is kept returns that list. */
  lemma {:induction false} FilterKeepsAll<T(!new)>(xs: seq<T>, keep: T -> bool)
    requires forall i :: 0 <= i < |xs| ==> keep(xs[i])
    ensures Filter(xs, keep) == xs
  {
    if xs != [] {
      assert keep(xs[0]);
      FilterKeepsAll(xs[1..], keep);
      assert [xs[0]] + xs[1..] == xs;
    }
  }

  /** Filtering drops exactly the elements that fail `keep`, counted with multiplicity. */
  lemma {:induction false} FilterCount<T(!new)>(xs: seq<T>, keep: T -> bool, x: T)
    ensures multiset(Filter(xs, keep))[x] == if keep(x) then multiset(xs)[x] else 0
  {
    if xs != [] {
      FilterCount(xs[1..], keep, x);
      assert xs == [xs[0]] + xs[1..];
      assert multiset(xs) == multiset([xs[0]]) + multiset(xs[1..]);
    }
  }

  /** Filtering a list that holds an element failing `keep` makes it strictly shorter. */
  lemma {:induction false} FilterDropsSome<T(!new)>(xs: seq<T>, keep: T -> bool, x: T)
    requires x in xs && !keep(x)
    ensures |Filter(xs, keep)| < |xs|
  {
    if xs[0] == x {
      assert |Filter(xs[1..], keep)| <= |xs[1..]|;
    } else {
      FilterDropsSome(xs[1..], keep, x);
    }
  }
}

=== FILE: create_page.dfy ===
/** The page creator: the same link handlers as the editor, a publish
    request carrying the whole page, and the profile link shown once the page
    is created. */
module CreatePage {
  import opened Common
  import opened PageEditor
  import SocialLinks
  import ShareDialog
  import SuccessCard

  /** `username.replace(/\s+/g, "").toLowerCase()`. */
  function NormaliseUsername(u: string): (r: string)
    ensures |r| == |StripSpaces(u)| <= |u|
    ensures forall i :: 0 <= i < |r| ==> !IsJsSpace(r[i]) && !IsAsciiUpper(r[i])
    ensures (forall i :: 0 <= i < |u| ==> !IsJsSpace(u[i]) && !IsAsciiUpper(u[i])) ==> r == u
  {
    Lower(StripSpaces(u))
  }

  /** Normalising a normalised username changes nothing. */
  lemma NormaliseIdempotent(u: string)
    ensures NormaliseUsername(NormaliseUsername(u)) == NormaliseUsername(u)
  {
  }

  /** Normalisation works piece by piece: a username split anywhere
      normalises to the two normalised halves. */
  lemma NormaliseAppend(a: string, b: string)
    ensures NormaliseUsername(a + b) == NormaliseUsername(a) + NormaliseUsername(b)
  {
    StripSpacesAppend(a, b);
    LowerAppend(StripSpaces(a), StripSpaces(b));
  }

  /** A single white-space character normalises to nothing. */
  lemma NormaliseSpace(c: char)
    requires IsJsSpace(c)
    ensures NormaliseUsername([c]) == []
  {
    assert StripSpaces([c]) == StripSpaces([c][1..]);
  }

  /** A white-space character anywhere in a username disappears. */
  lemma NormaliseDropsSpace(a: string, c: char, b: string)
    requires IsJsSpace(c)
    ensures NormaliseUsername(a + [c] + b) == NormaliseUsername(a) + NormaliseUsername(b)
    ensures NormaliseUsername(a + [c] + b) == NormaliseUsername(a + b)
  {
    NormaliseSpace(c);
    NormaliseAppend(a, [c]);
    NormaliseAppend(a + [c], b);
    NormaliseAppend(a, b);
    assert NormaliseUsername(a) + [] == NormaliseUsername(a);
  }

  /** ASCII letter case makes no difference. */
  lemma NormaliseIgnoresCase(u: string)
    ensures NormaliseUsername(Lower(u)) == NormaliseUsername(u)
  {
    StripLowerCommute(u);
    LowerIdempotent(StripSpaces(u));
  }

  const ProfileHost := "https://linkfree.app/"

  /** The link shown after publishing: the host followed by the normalised username. */
  function ProfileLink(username: string): (link: string)
    ensures |link| >= |ProfileHost| && link[..|ProfileHost|] == ProfileHost
    ensures link[|ProfileHost|..] == NormaliseUsername(username)
  {
    ProfileHost + NormaliseUsername(username)
  }

  /** Usernames that differ only in white space and ASCII letter case get
      the same link: a link made from the normalised name is the same link,
      a white-space character anywhere may be dropped, and the name may be
      lower-cased first. */
  lemma ProfileLinkStable(u: string, a: string, c: char, b: string)
    requires IsJsSpace(c)
    ensures ProfileLink(NormaliseUsername(u)) == ProfileLink(u)
    ensures ProfileLink(a + [c] + b) == ProfileLink(a + b)
    ensures ProfileLink(Lower(u)) == ProfileLink(u)
  {
    NormaliseIdempotent(u);
    NormaliseDropsSpace(a, c, b);
    NormaliseIgnoresCase(u);
  }

  /** Two usernames whose link differs were different after normalising. */
  lemma ProfileLinkInjective(u: string, v: string)
    ensures ProfileLink(u) == ProfileLink(v) <==> NormaliseUsername(u) == NormaliseUsername(v)
  {
    if ProfileLink(u) == ProfileLink(v) {
      assert ProfileLink(u)[|ProfileHost|..] == ProfileLink(v)[|ProfileHost|..];
    }
  }

  /** The address the success card shows: the normalised username, the
      slug, and the default flag loaded with the page. */
  function SuccessCardUrl(frontend: Option<string>, username: string, slug: string, isDefault: Option<bool>): (url: string)
    ensures isDefault == Some(true) ==> url == Interp(frontend) + "/" + NormaliseUsername(username)
    ensures isDefault != Some(true) ==> url == Interp(frontend) + "/" + NormaliseUsername(username) + "/" + slug
  {
    SuccessCard.ShareUrl(frontend, NormaliseUsername(username), Some(slug), isDefault)
  }

  /** The creator opens the share sheet with the normalised slug in place of
      the username and with neither a slug nor a default flag, so the sheet
      shows the site, the normalised slug and the literal segment
      "undefined", whatever the user's name is. */
  function ShareSheetUrl(slug: string): (url: string)
    ensures url == ShareDialog.Site + "/" + NormaliseUsername(slug) + "/undefined"
  {
    var n := NormaliseUsername(slug);
    assert ShareDialog.Site + "/" + n + "/" + "undefined" == ShareDialog.Site + "/" + n + "/undefined";
    ShareDialog.ShareUrl(Some(n), None, None)
  }

  /** Whatever the slug, the sheet's address ends in "/undefined". */
  lemma ShareSheetShowsUndefined(slug: string)
    ensures |ShareSheetUrl(slug)| >= 10 && ShareSheetUrl(slug)[|ShareSheetUrl(slug)| - 10..] == "/undefined"
  {
    var u := ShareSheetUrl(slug);
    var prefix := ShareDialog.Site + "/" + NormaliseUsername(slug);
    assert u == prefix + "/undefined";
    assert u[|prefix|..] == "/undefined";
  }

  /** The body of `POST /api/pages`. */
  datatype PublishPayload = PublishPayload(
    slug: string, bio: string, socialLinks: seq<SocialLinks.SocialLink>,
    background: string, visibility: bool, links: seq<PayloadLink>)

  /** The fields of `GET /api/pages/createpageinfo` the creator reads. */
  datatype PageInfo = PageInfo(bio: Option<string>, userBio: Option<string>, isDefault: Option<bool>, username: string)

  class CreatePageState {
    var loading: bool
    var slug: string
    var bio: string
    var links: seq<PageLink>
    var socialLinks: seq<SocialLinks.SocialLink>
    var background: string
    var visibility: bool
    var username: string
    var isDefault: Option<bool>
    var isSaving: bool
    var showSuccessCard: bool
    var profileLink: string

    constructor ()
      ensures loading && slug == "" && bio == "" && links == [] && socialLinks == []
      ensures background == "" && visibility && username == "" && !isSaving
      ensures !showSuccessCard && profileLink == "" && isDefault == Some(false)
    {
      loading := true;
      slug := "";
      bio := "";
      links := [];
      socialLinks := [];
      background := "";
      visibility := true;
      username := "";
      isDefault := Some(false);
      isSaving := false;
      showSuccessCard := false;
      profileLink := "";
    }

    /** The page-info fetch fills the bio (page bio, else user bio, else "")
        and the username. */
    method Load(reply: Reply<PageInfo>)
      modifies this
      ensures !loading
      ensures reply.Ok? ==> bio == InitialBio(reply.value.bio, reply.value.userBio) && username == reply.value.username
      ensures reply.Ok? ==> isDefault == reply.value.isDefault
      ensures reply.Failed? ==> bio == old(bio) && username == old(username) && isDefault == old(isDefault)
      ensures links == old(links) && slug == old(slug) && socialLinks == old(socialLinks)
      ensures background == old(background) && visibility == old(visibility) && isSaving == old(isSaving)
      ensures showSuccessCard == old(showSuccessCard) && profileLink == old(profileLink)
    {
      if reply.Ok? {
        bio := InitialBio(reply.value.bio, reply.value.userBio);
        isDefault := reply.value.isDefault;
        username := reply.value.username;
      }
      loading := false;
    }

    method AddLinkClicked()
      modifies this
      ensures links == AddLink(old(links))
      ensures slug == old(slug) && bio == old(bio) && socialLinks == old(socialLinks) && background == old(background)
      ensures visibility == old(visibility) && username == old(username) && isSaving == old(isSaving)
      ensures showSuccessCard == old(showSuccessCard) && profileLink == old(profileLink) && loading == old(loading)
      ensures isDefault == old(isDefault)
    {
      links := AddLink(links);
    }

    method RemoveLinkClicked(id: Option<string>)
      modifies this
      ensures links == RemoveLink(old(links), id)
      ensures slug == old(slug) && bio == old(bio) && socialLinks == old(socialLinks) && background == old(background)
      ensures visibility == old(visibility) && username == old(username) && isSaving == old(isSaving)
      ensures showSuccessCard == old(showSuccessCard) && profileLink == old(profileLink) && loading == old(loading)
      ensures isDefault == old(isDefault)
    {
      links := RemoveLink(links, id);
    }

    method LinkEdited(title: string, field: LinkField, value: string)
      modifies this
      ensures links == UpdateLink(old(links), title, field, value)
      ensures slug == old(slug) && bio == old(bio) && socialLinks == old(socialLinks) && background == old(background)
      ensures visibility == old(visibility) && username == old(username) && isSaving == old(isSaving)
      ensures showSuccessCard == old(showSuccessCard) && profileLink == old(profileLink) && loading == old(loading)
      ensures isDefault == old(isDefault)
    {
      links := UpdateLink(links, title, field, value);
    }

    /** Publish: the payload carries the whole page; only a successful
        request sets the profile link and shows the success card, and
        `isSaving` is false afterwards either way. */
    method Publish(reply: Reply<()>) returns (payload: PublishPayload)
      modifies this
      ensures payload == PublishPayload(slug, bio, socialLinks, background, visibility, PayloadLinks(links))
      ensures reply.Ok? ==> showSuccessCard && profileLink == ProfileLink(username)
      ensures reply.Failed? ==> showSuccessCard == old(showSuccessCard) && profileLink == old(profileLink)
      ensures !isSaving
      ensures links == old(links) && slug == old(slug) && bio == old(bio) && socialLinks == old(socialLinks)
      ensures background == old(background) && visibility == old(visibility) && username == old(username)
      ensures loading == old(loading) && isDefault == old(isDefault)
    {
      isSaving := true;
      payload := PublishPayload(slug, bio, socialLinks, background, visibility, PayloadLinks(links));
      if reply.Ok? {
        profileLink := ProfileLink(username);
        showSuccessCard := true;
      }
      isSaving := false;
    }

    method CloseSuccessCard()
      modifies this
      ensures !showSuccessCard
      ensures links == old(links) && slug == old(slug) && bio == old(bio) && socialLinks == old(socialLinks)
      ensures background == old(background) && visibility == old(visibility) && username == old(username)
      ensures isSaving == old(isSaving) && profileLink == old(profileLink) && loading == old(loading)
      ensures isDefault == old(isDefault)
    {
      showSuccessCard := false;
    }
  }
}

=== FILE: edit_page.dfy ===
/** The page editor: the page is loaded once and normalised, the link and
    visibility handlers update the screen's state, and Save sends the whole
    page in one request. */
module EditPage {
  import opened Common
  import opened PageEditor
  import opened Backgrounds
  import SocialLinks

  /** A social link as the server sends it: its url may be any JSON value. */
  datatype RawSocialLink = RawSocialLink(id: Option<int>, platform: SocialLinks.Platform, url: Json)

  /** The fields of `GET /api/pages/:id` the editor reads. */
  datatype RawPage = RawPage(
    bio: Option<string>, userBio: Option<string>, links: Option<seq<PageLink>>,
    socialLinks: Option<seq<RawSocialLink>>, background: Option<string>,
    slug: Option<string>, visibility: Option<bool>)

  /** Each loaded social link keeps its id and platform; a url that is not a
      string becomes "". */
  function NormaliseSocialLinks(raw: seq<RawSocialLink>): (r: seq<SocialLinks.SocialLink>)
    ensures |r| == |raw|
    ensures forall i :: 0 <= i < |raw| ==> r[i].id == raw[i].id && r[i].platform == raw[i].platform
    ensures forall i :: 0 <= i < |raw| ==> r[i].url == if raw[i].url.JString? then raw[i].url.s else ""
  {
    seq(|raw|, i requires 0 <= i < |raw| =>
      SocialLinks.SocialLink(raw[i].id, raw[i].platform, if raw[i].url.JString? then raw[i].url.s else ""))
  }

  /** What the server sends back for links the editor saved. */
  function AsRaw(links: seq<SocialLinks.SocialLink>): (r: seq<RawSocialLink>)
    ensures |r| == |links|
    ensures forall i :: 0 <= i < |links| ==> r[i] == RawSocialLink(links[i].id, links[i].platform, JString(links[i].url))
  {
    seq(|links|, i requires 0 <= i < |links| => RawSocialLink(links[i].id, links[i].platform, JString(links[i].url)))
  }

  /** Loading social links that were saved from the editor gives them back unchanged. */
  lemma NormaliseRoundTrip(links: seq<SocialLinks.SocialLink>)
    ensures NormaliseSocialLinks(AsRaw(links)) == links
  {
    var r := NormaliseSocialLinks(AsRaw(links));
    assert forall i :: 0 <= i < |links| ==> r[i] == links[i];
  }

  /** The background the loader leaves in state: the server's value, or
      "bg-blue-100" when that is missing or empty. */
  function LoadedBackground(bg: Option<string>): (r: string)
    ensures r != ""
    ensures Truthy(bg) ==> r == bg.value
  {
    Or(bg, "bg-blue-100")
  }

  /** After a load the preview never shows the default gradient. */
  lemma LoadedBackgroundNeverGradient(bg: Option<string>)
    ensures !Classify(Some(LoadedBackground(bg))).DefaultGradient?
    ensures !Truthy(bg) ==> Classify(Some(LoadedBackground(bg))) == ColorClass("bg-blue-100")
  {
    assert StartsWith("bg-blue-100", "bg-");
  }

  /** The body of `PUT /api/pages/:id`. */
  datatype SavePayload = SavePayload(bio: string, links: seq<PayloadLink>,
                                     socialLinks: seq<SocialLinks.SocialLink>, background: string)

  /** The body of `PUT /api/pages/visibility`. */
  datatype VisibilityRequest = VisibilityRequest(id: string, visibility: bool)

  class EditPageState {
    /** The `:id` route parameter. */
    const pageId: string
    var loading: bool
    var bio: string
    var links: seq<PageLink>
    var socialLinks: seq<SocialLinks.SocialLink>
    var slug: string
    var background: string
    var isVisible: bool
    var isSaving: bool

    constructor (id: string)
      ensures pageId == id && loading && bio == "" && links == [] && socialLinks == []
      ensures slug == "" && background == "" && isVisible && !isSaving
    {
      pageId := id;
      loading := true;
      bio := "";
      links := [];
      socialLinks := [];
      slug := "";
      background := "";
      isVisible := true;
      isSaving := false;
    }

    /** The page fetch: on success every field is filled from the reply with
        its default; on failure nothing but `loading` changes. */
    method Load(reply: Reply<RawPage>)
      modifies this
      ensures !loading && isSaving == old(isSaving)
      ensures reply.Ok? ==> (
        var p := reply.value;
        bio == InitialBio(p.bio, p.userBio) &&
        links == (if p.links.Some? then p.links.value else []) &&
        socialLinks == NormaliseSocialLinks(if p.socialLinks.Some? then p.socialLinks.value else []) &&
        slug == Or(p.slug, "") &&
        background == LoadedBackground(p.background) &&
        isVisible == (p.visibility == Some(true)))
      ensures reply.Failed? ==> (bio == old(bio) && links == old(links) && socialLinks == old(socialLinks) &&
        slug == old(slug) && background == old(background) && isVisible == old(isVisible))
    {
      match reply {
        case Ok(p) =>
          background := Or(p.background, "");
          bio := InitialBio(p.bio, p.userBio);
          links := if p.links.Some? then p.links.value else [];
          slug := Or(p.slug, "");
          isVisible := p.visibility == Some(true);
          socialLinks := NormaliseSocialLinks(if p.socialLinks.Some? then p.socialLinks.value else []);
          background := LoadedBackground(p.background);
        case Failed(_) =>
      }
      loading := false;
    }

    method AddLinkClicked()
      modifies this
      ensures links == AddLink(old(links))
      ensures bio == old(bio) && socialLinks == old(socialLinks) && background == old(background)
      ensures slug == old(slug) && isVisible == old(isVisible) && isSaving == old(isSaving) && loading == old(loading)
    {
      links := AddLink(links);
    }

    method RemoveLinkClicked(id: Option<string>)
      modifies this
      ensures links == RemoveLink(old(links), id)
      ensures bio == old(bio) && socialLinks == old(socialLinks) && background == old(background)
      ensures slug == old(slug) && isVisible == old(isVisible) && isSaving == old(isSaving) && loading == old(loading)
    {
      links := RemoveLink(links, id);
    }

    method LinkEdited(title: string, field: LinkField, value: string)
      modifies this
      ensures links == UpdateLink(old(links), title, field, value)
      ensures bio == old(bio) && socialLinks == old(socialLinks) && background == old(background)
      ensures slug == old(slug) && isVisible == old(isVisible) && isSaving == old(isSaving) && loading == old(loading)
    {
      links := UpdateLink(links, title, field, value);
    }

    /** The visibility switch: the flag takes the requested value only after
        the request succeeded; the toast names the new visibility on success
        and reports the failure otherwise. */
    method ChangeVisibility(visibility: bool, reply: Reply<()>) returns (request: VisibilityRequest, toastTitle: string)
      modifies this
      ensures request == VisibilityRequest(pageId, visibility)
      ensures isVisible == if reply.Ok? then visibility else old(isVisible)
      ensures reply.Ok? && visibility ==> toastTitle == "Page is now visible"
      ensures reply.Ok? && !visibility ==> toastTitle == "Page is now hidden"
      ensures reply.Failed? ==> toastTitle == "Failed to update visibility"
      ensures links == old(links) && bio == old(bio) && socialLinks == old(socialLinks)
      ensures background == old(background) && slug == old(slug) && isSaving == old(isSaving) && loading == old(loading)
    {
      request := VisibilityRequest(pageId, visibility);
      if reply.Ok? {
        isVisible := visibility;
        toastTitle := if visibility then "Page is now visible" else "Page is now hidden";
      } else {
        toastTitle := "Failed to update visibility";
      }
    }

    /** Save: the payload mirrors the screen (links without their ids, a
        missing click count sent as 0) and `isSaving` is false afterwards
        whatever the reply. */
    method Save(reply: Reply<()>) returns (payload: SavePayload, saved: bool)
      modifies this
      ensures payload == SavePayload(bio, PayloadLinks(links), socialLinks, background)
      ensures PayloadClicks(payload.links) == TotalLinkClicks(links)
      ensures saved <==> reply.Ok?
      ensures !isSaving
      ensures links == old(links) && bio == old(bio) && socialLinks == old(socialLinks)
      ensures background == old(background) && slug == old(slug) && isVisible == old(isVisible) && loading == old(loading)
    {
      isSaving := true;
      payload := SavePayload(bio, PayloadLinks(links), socialLinks, background);
      PayloadKeepsTotal(links);
      saved := reply.Ok?;
      isSaving := false;
    }
  }
}

=== FILE: image_files.dfy ===
/** The client-side check applied to a chosen image file before it is
    uploaded. The profile-setup wizard and the profile settings page apply
    the same rule with different type lists and size limits. */
module ImageFiles {

  /** The two properties of a browser `File` the checks read. */
  datatype FileInfo = FileInfo(mimeType: string, size: nat)

  datatype Verdict = Accepted | WrongType | TooLarge

  const MiB: nat := 1024 * 1024

  /** The wizard's rule: JPEG or PNG, at most 5 MiB. */
  const WizardTypes: seq<string> := ["image/jpeg", "image/png"]
  const WizardLimit: nat := 5 * MiB

  /** The settings page's rule: JPEG, PNG or GIF, at most 2 MiB. */
  const SettingsTypes: seq<string> := ["image/jpeg", "image/png", "image/gif"]
  const SettingsLimit: nat := 2 * MiB

  /** The type test comes first; a file is too large only when its size is
      strictly above the limit, so a file of exactly the limit passes. */
  function Check(file: FileInfo, types: seq<string>, limit: nat): (v: Verdict)
    ensures v == Accepted <==> file.mimeType in types && file.size <= limit
    ensures v == WrongType <==> file.mimeType !in types
    ensures v == TooLarge <==> file.mimeType in types && file.size > limit
  {
    if file.mimeType !in types then WrongType
    else if file.size > limit then TooLarge
    else Accepted
  }

  /** Every file the wizard accepts, the settings page accepts unless it is
      bigger than 2 MiB; every GIF is refused by the wizard. */
  lemma WizardVersusSettings(file: FileInfo)
    ensures Check(file, WizardTypes, WizardLimit) == Accepted && file.size <= SettingsLimit
            ==> Check(file, SettingsTypes, SettingsLimit) == Accepted
    ensures file.mimeType == "image/gif" ==> Check(file, WizardTypes, WizardLimit) == WrongType
    ensures Check(file, SettingsTypes, SettingsLimit) == Accepted && file.mimeType != "image/gif"
            ==> Check(file, WizardTypes, WizardLimit) == Accepted
  {
    assert "image/gif" != "image/jpeg" && "image/gif" != "image/png";
  }
}

=== FILE: links_management.dfy ===
/** The link management screen: a list of three sample links that can be
    deleted one id at a time; its "add" button only shows a toast. */
module LinksManagement {
  import opened Common

  datatype ManagedLink = ManagedLink(id: string, title: string, url: string, icon: string, clicks: int)

  const InitialLinks: seq<ManagedLink> := [
    ManagedLink("1", "Twitter", "https://twitter.com/yourusername", "twitter", 123),
    ManagedLink("2", "Instagram", "https://instagram.com/yourusername", "instagram", 87),
    ManagedLink("3", "GitHub", "https://github.com/yourusername", "github", 45)
  ]

  /** `links.filter(link => link.id !== id)`. */
  function WithoutLink(links: seq<ManagedLink>, id: string): (r: seq<ManagedLink>)
    ensures |r| <= |links|
    ensures forall l :: l in r <==> l in links && l.id != id
  {
    Filter(links, (l: ManagedLink) => l.id != id)
  }

  /** Deleting keeps the other links in order; an absent id changes nothing;
      a present id shortens the list. */
  lemma WithoutLinkProperties(a: seq<ManagedLink>, b: seq<ManagedLink>, id: string)
    ensures WithoutLink(a + b, id) == WithoutLink(a, id) + WithoutLink(b, id)
    ensures (forall l :: l in a ==> l.id != id) ==> WithoutLink(a, id) == a
    ensures (exists l :: l in a && l.id == id) ==> |WithoutLink(a, id)| < |a|
  {
    var keep := (l: ManagedLink) => l.id != id;
    FilterAppend(a, b, keep);
    if forall l :: l in a ==> l.id != id {
      FilterKeepsAll(a, keep);
    }
    if exists l :: l in a && l.id == id {
      var l :| l in a && l.id == id;
      FilterDropsSome(a, keep, l);
    }
  }

  /** The sample links have distinct ids, so deleting one of them removes
      exactly that one. */
  lemma DeleteSampleLink()
    ensures WithoutLink(InitialLinks, "2") == [InitialLinks[0], InitialLinks[2]]
    ensures WithoutLink(InitialLinks, "4") == InitialLinks
  {
    var keep := (l: ManagedLink) => l.id != "2";
    assert InitialLinks == [InitialLinks[0]] + [InitialLinks[1]] + [InitialLinks[2]];
    FilterAppend([InitialLinks[0]] + [InitialLinks[1]], [InitialLinks[2]], keep);
    FilterAppend([InitialLinks[0]], [InitialLinks[1]], keep);
    FilterKeepsAll(InitialLinks, (l: ManagedLink) => l.id != "4");
  }

  /** The empty state replaces the list exactly when there are no links. */
  predicate ShowsEmptyState(links: seq<ManagedLink>)
  {
    |links| == 0
  }

  class LinksScreen {
    var links: seq<ManagedLink>

    constructor ()
      ensures links == InitialLinks
    {
      links := InitialLinks;
    }

    method DeleteLink(id: string) returns (toastTitle: string)
      modifies this
      ensures links == WithoutLink(old(links), id) && toastTitle == "Link deleted"
    {
      links := WithoutLink(links, id);
      toastTitle := "Link deleted";
    }

    /** "Add New Link" shows a toast and leaves the list as it is. */
    method AddNewLink() returns (toastTitle: string)
      ensures toastTitle == "Add link feature"
    {
      toastTitle := "Add link feature";
    }
  }

  /** Deleting the three sample links one by one reaches the empty state. */
  method DeleteAllSamples() returns (empty: bool)
    ensures empty
  {
    var screen := new LinksScreen();
    var _ := screen.DeleteLink("1");
    var _ := screen.DeleteLink("2");
    var _ := screen.DeleteLink("3");
    assert forall l :: l in screen.links ==> l in InitialLinks && l.id != "1" && l.id != "2" && l.id != "3";
    empty := ShowsEmptyState(screen.links);
  }
}

=== FILE: login.dfy ===
/** The login form: two field rules, an optional remember-me box, a
    password visibility toggle, and a loading flag that only a failed login
    clears. */
module Login {
  import opened Common

  datatype LoginForm = LoginForm(email: string, password: string, rememberMe: Option<bool>)

  /** The form's initial values: remember-me starts unchecked. */
  const DefaultForm := LoginForm("", "", Some(false))

  const EmailMessage := "Please enter a valid email address."
  const PasswordMessage := "Password is required"

  datatype LoginErrors = LoginErrors(email: Option<string>, password: Option<string>)

  /** The schema's verdict; remember-me may be missing and is never an error. */
  function Validate(f: LoginForm, isEmail: string -> bool): (e: LoginErrors)
    ensures e.email.Some? <==> !isEmail(f.email)
    ensures e.password.Some? <==> f.password == ""
    ensures e.email.Some? ==> e.email.value == EmailMessage
    ensures e.password.Some? ==> e.password.value == PasswordMessage
  {
    LoginErrors(if isEmail(f.email) then None else Some(EmailMessage),
                if |f.password| < 1 then Some(PasswordMessage) else None)
  }

  /** Remember-me has no bearing on whether the form passes. */
  lemma RememberMeIrrelevant(f: LoginForm, r: Option<bool>, isEmail: string -> bool)
    ensures Validate(f.(rememberMe := r), isEmail) == Validate(f, isEmail)
  {
  }

  /** The body of `POST /api/user/login`: remember-me is not sent. */
  datatype Credentials = Credentials(email: string, password: string)

  class LoginPage {
    var isLoading: bool
    var showPassword: bool

    constructor ()
      ensures !isLoading && !showPassword
    {
      isLoading := false;
      showPassword := false;
    }

    method TogglePasswordVisibility()
      modifies this
      ensures showPassword == !old(showPassword) && isLoading == old(isLoading)
    {
      showPassword := !showPassword;
    }

    /** A submit of a valid form: on success the flag stays set and the
        browser goes to the dashboard after two seconds; on failure the flag
        is cleared. An invalid form sends nothing. */
    method Submit(f: LoginForm, isEmail: string -> bool, reply: Reply<()>)
      returns (sent: Option<Credentials>, redirect: Option<string>, notice: Option<string>)
      modifies this
      ensures var e := Validate(f, isEmail); sent.Some? <==> e.email.None? && e.password.None?
      ensures sent.Some? ==> sent.value == Credentials(f.email, f.password)
      ensures sent.Some? && reply.Ok? ==> (isLoading && redirect == Some("/dashboard") &&
                                          notice == Some("signed in successfully"))
      ensures sent.Some? && reply.Failed? ==> (!isLoading && redirect.None? &&
                                              notice == Some("Invalid credentials or something is wrong "))
      ensures sent.None? ==> isLoading == old(isLoading) && redirect.None? && notice.None?
      ensures showPassword == old(showPassword)
    {
      var e := Validate(f, isEmail);
      if !(e.email.None? && e.password.None?) {
        sent, redirect, notice := None, None, None;
        return;
      }
      isLoading := true;
      sent := Some(Credentials(f.email, f.password));
      if reply.Ok? {
        notice := Some("signed in successfully");
        redirect := Some("/dashboard");
      } else {
        notice := Some("Invalid credentials or something is wrong ");
        redirect := None;
        isLoading := false;
      }
    }
  }

  /** Toggling the password visibility twice restores it. */
  method ToggleTwice(page: LoginPage)
    modifies page
    ensures page.showPassword == old(page.showPassword) && page.isLoading == old(page.isLoading)
  {
    page.TogglePasswordVisibility();
    page.TogglePasswordVisibility();
  }
}

=== FILE: overview.dfy ===
/** The dashboard overview: three statistics cards whose values start at
    "0" and are replaced by the values the analytics endpoint returns,
    matched by title. */
module Overview {
  import opened Common

  datatype Icon = Eye | MouseClick | TrendingUp

  datatype Stat = Stat(title: string, value: string, icon: Icon)

  /** An item of the analytics reply. */
  datatype DataItem = DataItem(title: string, value: string)

  const InitialStats: seq<Stat> := [
    Stat("Total Profile Views", "0", Eye),
    Stat("Total Link Clicks", "0", MouseClick),
    Stat("Engagement Rate", "0", TrendingUp)
  ]

  /** Every card starts at "0", and the titles are distinct. */
  lemma InitialStatsZero()
    ensures forall i :: 0 <= i < |InitialStats| ==> InitialStats[i].value == "0"
    ensures forall i, j :: 0 <= i < j < |InitialStats| ==> InitialStats[i].title != InitialStats[j].title
  {
  }

  /** `data.find(item => item.title === title)`. */
  function FindByTitle(data: seq<DataItem>, title: string): (r: Option<DataItem>)
    ensures r.None? <==> forall i :: 0 <= i < |data| ==> data[i].title != title
    ensures r.Some? ==> exists k :: 0 <= k < |data| && data[k] == r.value && r.value.title == title &&
                         forall i :: 0 <= i < k ==> data[i].title != title
  {
    if data == [] then None
    else if data[0].title == title then
      Some(data[0])
    else
      var r := FindByTitle(data[1..], title);
      if r.Some? then
        var k' :| 0 <= k' < |data[1..]| && data[1..][k'] == r.value && r.value.title == title &&
                  forall i :: 0 <= i < k' ==> data[1..][i].title != title;
        assert data[k' + 1] == r.value;
        r
      else r
  }

  /** The merge in `fetchStats`: each card takes the value of the first item
      with its title, and keeps its value when there is none. */
  function MergeStats(stats: seq<Stat>, data: seq<DataItem>): (r: seq<Stat>)
    ensures |r| == |stats|
    ensures forall i :: 0 <= i < |stats| ==> r[i].title == stats[i].title && r[i].icon == stats[i].icon
    ensures forall i :: 0 <= i < |stats| ==>
      r[i].value == (var m := FindByTitle(data, stats[i].title); if m.Some? then m.value.value else stats[i].value)
  {
    seq(|stats|, i requires 0 <= i < |stats| =>
      var m := FindByTitle(data, stats[i].title);
      if m.Some? then stats[i].(value := m.value.value) else stats[i])
  }

  /** An empty reply changes nothing, and merging the same reply twice is
      merging it once. */
  lemma MergeEmptyAndIdempotent(stats: seq<Stat>, data: seq<DataItem>)
    ensures MergeStats(stats, []) == stats
    ensures MergeStats(MergeStats(stats, data), data) == MergeStats(stats, data)
  {
    assert forall i :: 0 <= i < |stats| ==> MergeStats(stats, [])[i] == stats[i];
    var once := MergeStats(stats, data);
    assert forall i :: 0 <= i < |stats| ==> MergeStats(once, data)[i] == once[i];
  }

  /** A reply listing the three overview titles fills all three cards. */
  lemma FullReplyFillsAll(views: string, clicks: string, rate: string)
    ensures MergeStats(InitialStats, [DataItem("Total Profile Views", views),
                                     DataItem("Total Link Clicks", clicks),
                                     DataItem("Engagement Rate", rate)])
            == [Stat("Total Profile Views", views, Eye),
                Stat("Total Link Clicks", clicks, MouseClick),
                Stat("Engagement Rate", rate, TrendingUp)]
  {
    var data := [DataItem("Total Profile Views", views), DataItem("Total Link Clicks", clicks),
                 DataItem("Engagement Rate", rate)];
    assert FindByTitle(data, "Total Profile Views") == Some(data[0]);
    assert FindByTitle(data, "Total Link Clicks") == Some(data[1]);
    assert FindByTitle(data, "Engagement Rate") == Some(data[2]);
  }

  /** The text of a card: the value, with "%" after the engagement rate only. */
  function ValueLabel(s: Stat): (text: string)
    ensures s.title == "Engagement Rate" ==> text == s.value + "%"
    ensures s.title != "Engagement Rate" ==> text == s.value
  {
    if s.title == "Engagement Rate" then s.value + "%" else s.value
  }

  class OverviewPage {
    var stats: seq<Stat>
    var loading: bool

    constructor ()
      ensures stats == InitialStats && loading
    {
      stats := InitialStats;
      loading := true;
    }

    /** The analytics fetch: the reply is merged into the cards; a failure
        leaves them; `loading` is false afterwards. */
    method FetchStats(reply: Reply<seq<DataItem>>)
      modifies this
      ensures stats == if reply.Ok? then MergeStats(old(stats), reply.value) else old(stats)
      ensures !loading
    {
      loading := true;
      if reply.Ok? {
        stats := MergeStats(stats, reply.value);
      }
      loading := false;
    }
  }
}

=== FILE: page_editor.dfy ===
/** The list of page links shared by the page editor and the page creator:
    the add / remove / update handlers, the click total, the save payload and
    the bio fallback used when a page is loaded. Both screens carry
    identical copies of this logic, so it is defined once here. */
module PageEditor {
  import opened Common

  /** A link on a page. Links loaded from the server may carry an `id` and a
      click count; links added in the editor carry neither. */
  datatype PageLink = PageLink(id: Option<string>, title: string, url: string, clicks: Option<int>)

  /** The field named by `updateLink`'s second argument. */
  datatype LinkField = Title | Url

  /** What `addLink` appends: `{ title: "", url: "" }`. */
  const NewLink := PageLink(None, "", "", None)

  /** `addLink`: one empty, id-less link after the existing ones. */
  function AddLink(links: seq<PageLink>): (r: seq<PageLink>)
    ensures |r| == |links| + 1
    ensures r[..|links|] == links
    ensures r[|links|].id.None? && r[|links|].title == "" && r[|links|].url == ""
  {
    links + [NewLink]
  }

  /** `removeLink(id)`: keeps exactly the links whose id differs from the
      argument. The argument is the clicked link's own id, which is undefined
      for a link added in the editor. */
  function RemoveLink(links: seq<PageLink>, id: Option<string>): (r: seq<PageLink>)
    ensures |r| <= |links|
    ensures forall l :: l in r <==> l in links && l.id != id
  {
    Filter(links, (l: PageLink) => l.id != id)
  }

  function SetField(l: PageLink, field: LinkField, value: string): PageLink
  {
    match field
    case Title => l.(title := value)
    case Url => l.(url := value)
  }

  /** `updateLink(title, field, value)`: every link whose title equals
      `title` gets `value` in `field`; the others are left as they are. */
  function UpdateLink(links: seq<PageLink>, title: string, field: LinkField, value: string): (r: seq<PageLink>)
    ensures |r| == |links|
    ensures forall i :: 0 <= i < |links| && links[i].title != title ==> r[i] == links[i]
    ensures forall i :: 0 <= i < |links| && links[i].title == title ==>
      r[i].id == links[i].id && r[i].clicks == links[i].clicks &&
      (field == Title ==> r[i].title == value && r[i].url == links[i].url) &&
      (field == Url ==> r[i].url == value && r[i].title == links[i].title)
  {
    seq(|links|, i requires 0 <= i < |links| =>
      if links[i].title == title then SetField(links[i], field, value) else links[i])
  }

  /** `link.clicks || 0`. */
  function Clicks(l: PageLink): (n: int)
    ensures l.clicks.Some? ==> n == l.clicks.value
    ensures l.clicks.None? ==> n == 0
  {
    match l.clicks
    case Some(c) => c
    case None => 0
  }

  /** The `reduce` that sums the clicks of the links, a missing count being 0. */
  function TotalLinkClicks(links: seq<PageLink>): (total: int)
    ensures (forall i :: 0 <= i < |links| ==> Clicks(links[i]) >= 0) ==> total >= 0
  {
    if links == [] then 0 else Clicks(links[0]) + TotalLinkClicks(links[1..])
  }

  /** The total over two lists put together is the sum of their totals. */
  lemma {:induction false} TotalLinkClicksAppend(a: seq<PageLink>, b: seq<PageLink>)
    ensures TotalLinkClicks(a + b) == TotalLinkClicks(a) + TotalLinkClicks(b)
  {
    if a == [] {
      assert a + b == b;
    } else {
      assert (a + b)[0] == a[0];
      assert (a + b)[1..] == a[1..] + b;
      TotalLinkClicksAppend(a[1..], b);
    }
  }

  /** Adding a link does not change the total. */
  lemma AddLinkKeepsTotal(links: seq<PageLink>)
    ensures TotalLinkClicks(AddLink(links)) == TotalLinkClicks(links)
  {
    TotalLinkClicksAppend(links, [NewLink]);
  }

  /** Removing the links whose id is `id` lowers the total by exactly their clicks. */
  lemma {:induction false} RemoveLinkTotal(links: seq<PageLink>, id: Option<string>)
    ensures TotalLinkClicks(RemoveLink(links, id)) + TotalLinkClicks(Filter(links, (l: PageLink) => l.id == id))
            == TotalLinkClicks(links)
  {
    if links != [] {
      RemoveLinkTotal(links[1..], id);
      if links[0].id == id {
        assert Filter(links, (l: PageLink) => l.id == id)
            == [links[0]] + Filter(links[1..], (l: PageLink) => l.id == id);
      } else {
        assert RemoveLink(links, id) == [links[0]] + RemoveLink(links[1..], id);
      }
    }
  }

  /** Removing with the id of a link added in the editor (undefined) removes
      every id-less link, so with another id-less link present more than one
      link disappears. */
  lemma RemovingNewLinkRemovesEveryIdless(links: seq<PageLink>, other: PageLink)
    requires other in links && other.id.None?
    ensures |RemoveLink(AddLink(links), None)| < |links|
    ensures forall l :: l in RemoveLink(AddLink(links), None) ==> l.id.Some?
  {
    var keep := (l: PageLink) => l.id != None;
    FilterAppend(links, [NewLink], keep);
    assert Filter([NewLink], keep) == [];
    FilterDropsSome(links, keep, other);
  }

  /** Updating is keyed by title: editing one of two links with equal titles
      edits both. A link added in the editor has the empty title, so typing a
      title into one new link types it into every untitled link. */
  lemma UpdateReachesEqualTitles(links: seq<PageLink>, i: nat, j: nat, field: LinkField, value: string)
    requires i < |links| && j < |links| && links[i].title == links[j].title
    ensures var r := UpdateLink(links, links[i].title, field, value);
            r[i] == SetField(links[i], field, value) && r[j] == SetField(links[j], field, value)
  {
  }

  // ---------------------------------------------------------------------
  // The save payload: each link becomes `{title, url, clicks}`, the id dropped.

  datatype PayloadLink = PayloadLink(title: string, url: string, clicks: int)

  function PayloadLinks(links: seq<PageLink>): (r: seq<PayloadLink>)
    ensures |r| == |links|
    ensures forall i :: 0 <= i < |links| ==>
      r[i].title == links[i].title && r[i].url == links[i].url && r[i].clicks == Clicks(links[i])
  {
    seq(|links|, i requires 0 <= i < |links| => PayloadLink(links[i].title, links[i].url, Clicks(links[i])))
  }

  function PayloadClicks(ps: seq<PayloadLink>): int
  {
    if ps == [] then 0 else ps[0].clicks + PayloadClicks(ps[1..])
  }

  /** The payload carries the same click total as the links on screen. */
  lemma {:induction false} PayloadKeepsTotal(links: seq<PageLink>)
    ensures PayloadClicks(PayloadLinks(links)) == TotalLinkClicks(links)
  {
    if links != [] {
      assert PayloadLinks(links)[1..] == PayloadLinks(links[1..]);
      PayloadKeepsTotal(links[1..]);
    }
  }

  /** The payload does not depend on the ids: two lists that differ only in
      their ids give the same payload. */
  lemma PayloadIgnoresIds(a: seq<PageLink>, b: seq<PageLink>)
    requires |a| == |b|
    requires forall i :: 0 <= i < |a| ==> a[i].(id := None) == b[i].(id := None)
    ensures PayloadLinks(a) == PayloadLinks(b)
  {
    forall i | 0 <= i < |a| ensures PayloadLinks(a)[i] == PayloadLinks(b)[i] {
      assert a[i].title == a[i].(id := None).title && b[i].title == b[i].(id := None).title;
      assert a[i].clicks == a[i].(id := None).clicks && b[i].clicks == b[i].(id := None).clicks;
    }
  }

  /** `pageData.bio || pageData.user.bio || ""`. */
  function InitialBio(pageBio: Option<string>, userBio: Option<string>): (bio: string)
    ensures Truthy(pageBio) ==> bio == pageBio.value
    ensures !Truthy(pageBio) && Truthy(userBio) ==> bio == userBio.value
    ensures !Truthy(pageBio) && !Truthy(userBio) ==> bio == ""
  {
    Or(pageBio, Or(userBio, ""))
  }
}

=== FILE: page_list.dfy ===
/** The "your pages" screen: the page list fetched from the server, a local
    delete, a local create guarded by a non-blank title, and the empty-state
    flag both of them set. */
module PageList {
  import opened Common

  /** A page entry. Entries from the server carry a slug; entries created on
      this screen carry a title and no slug. */
  datatype PageEntry = PageEntry(id: string, title: Option<string>, slug: Option<string>, createdAt: string)

  /** The body of `GET /api/pages`: an array of pages or any other value. */
  datatype PagesBody = NotAnArray | PageArray(pages: seq<PageEntry>)

  /** The fetch keeps an array reply and turns anything else, including a
      failed request, into the empty list. */
  function FetchedPages(reply: Reply<PagesBody>): (pages: seq<PageEntry>)
    ensures reply.Ok? && reply.value.PageArray? ==> pages == reply.value.pages
    ensures !(reply.Ok? && reply.value.PageArray?) ==> pages == []
  {
    if reply.Ok? && reply.value.PageArray? then reply.value.pages else []
  }

  /** `pages.filter(page => page.id !== id)`. */
  function WithoutPage(pages: seq<PageEntry>, id: string): (r: seq<PageEntry>)
    ensures |r| <= |pages|
    ensures forall p :: p in r <==> p in pages && p.id != id
  {
    Filter(pages, (p: PageEntry) => p.id != id)
  }

  /** Deleting keeps the other pages in their order, and deleting an id no
      page has changes nothing. */
  lemma WithoutPageOrder(a: seq<PageEntry>, b: seq<PageEntry>, id: string)
    ensures WithoutPage(a + b, id) == WithoutPage(a, id) + WithoutPage(b, id)
    ensures (forall p :: p in a ==> p.id != id) ==> WithoutPage(a, id) == a
  {
    FilterAppend(a, b, (p: PageEntry) => p.id != id);
    if forall p :: p in a ==> p.id != id {
      FilterKeepsAll(a, (p: PageEntry) => p.id != id);
    }
  }

  /** The empty-state flag after a delete: set when the list had exactly
      one page before the delete, whichever id was deleted; otherwise kept. */
  function EmptyAfterDelete(pages: seq<PageEntry>, isEmpty: bool): (r: bool)
    ensures r <==> isEmpty || |pages| == 1
  {
    isEmpty || |pages| == 1
  }

  /** The empty state is shown when the flag is set or there are no pages. */
  predicate EmptyStateShown(pages: seq<PageEntry>, isEmpty: bool)
  {
    isEmpty || |pages| == 0
  }

  /** When every page is deleted the empty state is shown; but deleting an
      id that the only page does not have also sets the flag, so the empty
      state is shown while that page is still in the list. */
  lemma DeleteEmptyState(pages: seq<PageEntry>, id: string, isEmpty: bool)
    ensures |WithoutPage(pages, id)| == 0 ==> EmptyStateShown(WithoutPage(pages, id), EmptyAfterDelete(pages, isEmpty))
    ensures |pages| == 1 && pages[0].id != id ==>
      WithoutPage(pages, id) == pages && EmptyStateShown(WithoutPage(pages, id), EmptyAfterDelete(pages, isEmpty))
  {
    if |pages| == 1 && pages[0].id != id {
      FilterKeepsAll(pages, (p: PageEntry) => p.id != id);
    }
  }

  /** The page a create appends: the title as typed, untrimmed; the id and
      date come from the clock. */
  function NewPage(title: string, now: string, today: string): (p: PageEntry)
    ensures p.id == now && p.title == Some(title) && p.slug.None? && p.createdAt == today
  {
    PageEntry(now, Some(title), None, today)
  }

  /** Where the buttons of a page card lead. */
  function ViewTarget(username: Option<string>): (target: string)
    ensures |target| >= 1 && target[0] == '/' && target[1..] == Interp(username)
    ensures username.None? ==> target == "/undefined"
  {
    "/" + Interp(username)
  }

  function EditTarget(id: string): (target: string)
    ensures |target| == 11 + |id| && target[..11] == "/edit-page/" && target[11..] == id
  {
    "/edit-page/" + id
  }

  class ListPages {
    var pages: seq<PageEntry>
    var isEmpty: bool
    var isDialogOpen: bool
    var newPageTitle: string
    var loading: bool

    constructor ()
      ensures pages == [] && !isEmpty && !isDialogOpen && newPageTitle == "" && loading
    {
      pages := [];
      isEmpty := false;
      isDialogOpen := false;
      newPageTitle := "";
      loading := true;
    }

    method Fetch(reply: Reply<PagesBody>)
      modifies this
      ensures pages == FetchedPages(reply) && !loading
      ensures isEmpty == old(isEmpty) && isDialogOpen == old(isDialogOpen) && newPageTitle == old(newPageTitle)
    {
      loading := true;
      pages := FetchedPages(reply);
      loading := false;
    }

    /** A local delete: no request is made. */
    method DeletePage(id: string)
      modifies this
      ensures pages == WithoutPage(old(pages), id)
      ensures isEmpty == EmptyAfterDelete(old(pages), old(isEmpty))
      ensures isDialogOpen == old(isDialogOpen) && newPageTitle == old(newPageTitle) && loading == old(loading)
    {
      var before := pages;
      pages := WithoutPage(pages, id);
      if |before| == 1 {
        isEmpty := true;
      }
    }

    method OpenDialog()
      modifies this
      ensures isDialogOpen
      ensures pages == old(pages) && isEmpty == old(isEmpty) && newPageTitle == old(newPageTitle) && loading == old(loading)
    {
      isDialogOpen := true;
    }

    /** A blank title is refused and changes nothing; otherwise the page is
        appended, the empty-state flag cleared, the title cleared and the
        dialog closed. */
    method CreatePage(now: string, today: string) returns (created: bool)
      modifies this
      ensures created <==> !IsBlank(old(newPageTitle))
      ensures !created ==> (pages == old(pages) && isEmpty == old(isEmpty) &&
                            isDialogOpen == old(isDialogOpen) && newPageTitle == old(newPageTitle))
      ensures created ==> (pages == old(pages) + [NewPage(old(newPageTitle), now, today)] &&
                           !isEmpty && newPageTitle == "" && !isDialogOpen)
      ensures loading == old(loading)
    {
      if IsBlank(newPageTitle) {
        created := false;
        return;
      }
      pages := pages + [NewPage(newPageTitle, now, today)];
      isEmpty := false;
      newPageTitle := "";
      isDialogOpen := false;
      created := true;
    }
  }

  /** The flag depends on the length alone: a delete called with an id the
      only page does not have leaves that page in the list behind the empty
      state. (The screen's own delete buttons pass their page's id.) */
  method StaleDeleteHidesPage(p: PageEntry, id: string) returns (shown: bool, remaining: seq<PageEntry>)
    requires p.id != id
    ensures shown && remaining == [p]
  {
    var screen := new ListPages();
    screen.Fetch(Ok(PageArray([p])));
    screen.DeletePage(id);
    DeleteEmptyState([p], id, false);
    shown := EmptyStateShown(screen.pages, screen.isEmpty);
    remaining := screen.pages;
  }
}

=== FILE: page_urls.dfy ===
/** The address of a published page, as the share dialog and the success
    card build it: the site followed by the username, and for a page other
    than the user's default one also followed by the slug. */
module PageUrls {
  /** The username-only address of a profile. */
  function ProfileUrl(site: string, username: string): (url: string)
    ensures |url| == |site| + 1 + |username|
    ensures url[..|site|] == site && url[|site|] == '/' && url[|site| + 1..] == username
  {
    site + "/" + username
  }

  /** The address of a page: the profile address for the default page,
      otherwise the profile address extended by the slug. */
  function PageUrl(site: string, username: string, slug: string, isDefault: bool): (url: string)
    ensures ProfileUrl(site, username) <= url
    ensures isDefault <==> url == ProfileUrl(site, username)
    ensures !isDefault ==> url[|ProfileUrl(site, username)|..] == "/" + slug
  {
    var profile := ProfileUrl(site, username);
    if isDefault then profile else profile + "/" + slug
  }

  /** Two non-default pages of the same user have the same address only when
      their slugs are equal. */
  lemma PageUrlInjectiveInSlug(site: string, username: string, s1: string, s2: string)
    ensures PageUrl(site, username, s1, false) == PageUrl(site, username, s2, false) <==> s1 == s2
  {
    if PageUrl(site, username, s1, false) == PageUrl(site, username, s2, false) {
      assert ("/" + s1)[1..] == s1 && ("/" + s2)[1..] == s2;
    }
  }
}

=== FILE: pages_card.dfy ===
/** The dashboard's page card: the same page fetch as the pages screen, a
    three-way render decision and two navigation targets. */
module PagesCard {
  import opened Common
  import opened PageList

  datatype CardView = LoadingView | NoPagesView | TableView(rows: seq<PageEntry>)

  /** Loading first, then no pages, then the table of pages. The card's own
      empty-state flag is never set, so its inner empty state is never shown. */
  function ViewOf(loading: bool, pages: seq<PageEntry>): (v: CardView)
    ensures v.LoadingView? <==> loading
    ensures v.NoPagesView? <==> !loading && pages == []
    ensures v.TableView? ==> v.rows == pages && pages != []
  {
    if loading then LoadingView else if |pages| == 0 then NoPagesView else TableView(pages)
  }

  /** "New Page" navigates to this path, relative to the current route. */
  const CreateTarget := "pages/create"

  /** Every table row's edit button leads to the editor of that row's page. */
  lemma RowsLeadToEditor(pages: seq<PageEntry>, i: nat)
    requires i < |pages|
    ensures var v := ViewOf(false, pages);
            v.TableView? && EditTarget(v.rows[i].id) == "/edit-page/" + pages[i].id
  {
  }

  class DashboardPagesCard {
    var pages: seq<PageEntry>
    var loading: bool

    constructor ()
      ensures pages == [] && loading
    {
      pages := [];
      loading := true;
    }

    method Fetch(reply: Reply<PagesBody>)
      modifies this
      ensures pages == FetchedPages(reply) && !loading
    {
      loading := true;
      pages := FetchedPages(reply);
      loading := false;
    }

    function Shown(): CardView
      reads this
    {
      ViewOf(loading, pages)
    }
  }

  /** A failed fetch shows the no-pages view. */
  method FailedFetchShowsNoPages(msg: Option<string>) returns (v: CardView)
    ensures v == NoPagesView
  {
    var card := new DashboardPagesCard();
    card.Fetch(Failed(msg));
    v := card.Shown();
  }
}

=== FILE: portfolio.dfy ===
/** The public profile page: which URL it fetches and tracks clicks at, how
    the fetched data is turned into what is shown, and which of the three
    views (loading, not found, profile) is rendered. */
module Portfolio {
  import opened Common
  import Backgrounds

  /** `/api/portfolio/{username}/{slug}` when the slug route parameter is
      present and non-empty, else `/api/portfolio/{username}`; a missing
      username is interpolated as "undefined". */
  function FetchUrl(api: string, username: Option<string>, slug: Option<string>): (url: string)
    ensures Truthy(slug) ==> url == api + "/api/portfolio/" + Interp(username) + "/" + slug.value
    ensures !Truthy(slug) ==> url == api + "/api/portfolio/" + Interp(username)
  {
    var base := api + "/api/portfolio/" + Interp(username);
    if Truthy(slug) then base + "/" + slug.value else base
  }

  /** The click-tracking endpoint, chosen by the same slug test. */
  function TrackUrl(api: string, username: Option<string>, slug: Option<string>): (url: string)
    ensures StartsWith(url, api + "/api/portfolio/" + Interp(username) + "/")
    ensures |url| >= 11 && url[|url| - 11..] == "/track-link"
    ensures !Truthy(slug) ==> url == api + "/api/portfolio/" + Interp(username) + "/track-link"
    ensures Truthy(slug) ==> url == api + "/api/portfolio/" + Interp(username) + "/" + slug.value + "/track-link"
  {
    var base := api + "/api/portfolio/" + Interp(username);
    if Truthy(slug) then base + "/" + slug.value + "/track-link" else base + "/track-link"
  }

  /** Clicks are always tracked at the profile being shown: the tracking
      URL is the fetch URL followed by "/track-link". */
  lemma TrackUrlExtendsFetchUrl(api: string, username: Option<string>, slug: Option<string>)
    ensures TrackUrl(api, username, slug) == FetchUrl(api, username, slug) + "/track-link"
  {
  }

  /** What a link click does: the link is opened, the click is posted to the
      tracking URL, and if that post fails the link is opened a second time. */
  datatype ClickEffects = ClickEffects(windows: seq<string>, trackedAt: string, trackedUrl: string, toast: bool)

  function LinkClick(api: string, username: Option<string>, slug: Option<string>,
                     linkUrl: string, reply: Reply<()>): (e: ClickEffects)
    ensures e.trackedAt == TrackUrl(api, username, slug) && e.trackedUrl == linkUrl
    ensures |e.windows| >= 1 && forall i :: 0 <= i < |e.windows| ==> e.windows[i] == linkUrl
    ensures |e.windows| == 2 <==> reply.Failed?
    ensures e.toast <==> reply.Failed?
  {
    var track := TrackUrl(api, username, slug);
    if reply.Ok? then ClickEffects([linkUrl], track, linkUrl, false)
    else ClickEffects([linkUrl, linkUrl], track, linkUrl, true)
  }

  // ---------------------------------------------------------------------
  // The fetched profile and what is shown of it.

  /** A social link as rendered: a position-based id, the platform name as
      the object key, and its url. */
  datatype ShownSocialLink = ShownSocialLink(id: int, platform: string, url: string)

  /** The fields of the portfolio reply the page reads. `socialLinks` is the
      object's entries, in key order. */
  datatype PortfolioData = PortfolioData(
    displayName: string, profilePic: string,
    userBio: Option<string>, pageBio: Option<string>,
    background: Option<string>, socialLinks: seq<(string, Json)>)

  /** `socialLinksArray`: one entry per key, numbered from 1, a url that is
      not a string replaced by ""; no data gives no entries. */
  function SocialLinksArray(data: Option<PortfolioData>): (r: seq<ShownSocialLink>)
    ensures data.None? ==> r == []
    ensures data.Some? ==> |r| == |data.value.socialLinks|
    ensures data.Some? ==> forall i :: 0 <= i < |r| ==>
      r[i].id == i + 1 && r[i].platform == data.value.socialLinks[i].0 &&
      r[i].url == (if data.value.socialLinks[i].1.JString? then data.value.socialLinks[i].1.s else "")
  {
    match data
    case None => []
    case Some(d) =>
      seq(|d.socialLinks|, i requires 0 <= i < |d.socialLinks| =>
        ShownSocialLink(i + 1, d.socialLinks[i].0,
                        if d.socialLinks[i].1.JString? then d.socialLinks[i].1.s else ""))
  }

  /** The ids of the rendered social links are 1, 2, ..., n: distinct and increasing. */
  lemma SocialLinkIdsIncreasing(data: Option<PortfolioData>)
    ensures forall i, j :: 0 <= i < j < |SocialLinksArray(data)| ==>
      SocialLinksArray(data)[i].id < SocialLinksArray(data)[j].id
    ensures forall i :: 0 <= i < |SocialLinksArray(data)| ==> SocialLinksArray(data)[i].id >= 1
  {
  }

  /** `pageBio || userBio`: the page's own bio when it is non-empty,
      otherwise whatever the user bio is (possibly missing or empty). */
  function DisplayedBio(d: PortfolioData): (bio: Option<string>)
    ensures Truthy(d.pageBio) ==> bio == d.pageBio
    ensures !Truthy(d.pageBio) ==> bio == d.userBio
  {
    if Truthy(d.pageBio) then d.pageBio else d.userBio
  }

  /** `displayName.substring(0, 2)`: the first two characters, or the whole
      name when it is shorter. */
  function AvatarFallback(displayName: string): (r: string)
    ensures |r| == if |displayName| < 2 then |displayName| else 2
    ensures r <= displayName
  {
    if |displayName| < 2 then displayName else displayName[..2]
  }

  /** The page's background, as the profile renders it. */
  function PageStyle(data: Option<PortfolioData>): (s: Backgrounds.Style)
    ensures data.None? ==> s == Backgrounds.ProfileStyle(None)
    ensures data.Some? ==> s == Backgrounds.ProfileStyle(data.value.background)
  {
    Backgrounds.ProfileStyle(if data.Some? then data.value.background else None)
  }

  datatype View = Loading | NotFound | Profile(data: PortfolioData)

  /** Loading first; then an error or missing data gives the not-found page;
      otherwise the profile. */
  function ViewOf(loading: bool, error: Option<string>, data: Option<PortfolioData>): (v: View)
    ensures v.Loading? <==> loading
    ensures v.NotFound? <==> !loading && (Truthy(error) || data.None?)
    ensures v.Profile? ==> data == Some(v.data)
  {
    if loading then Loading
    else if Truthy(error) || data.None? then NotFound
    else Profile(data.value)
  }

  const LoadFailedMessage := "Failed to load profile data"

  class PortfolioPage {
    var portfolioData: Option<PortfolioData>
    var error: Option<string>
    var loading: bool

    constructor ()
      ensures portfolioData.None? && error.None? && loading
    {
      portfolioData := None;
      error := None;
      loading := true;
    }

    /** The fetch: a reply sets the data (which may itself be missing); a
        failure sets the server's message, or the fixed one when there is
        none; `loading` is false afterwards. */
    method Fetch(reply: Reply<Option<PortfolioData>>)
      modifies this
      ensures !loading
      ensures reply.Ok? ==> portfolioData == reply.value && error == old(error)
      ensures reply.Failed? ==> portfolioData == old(portfolioData) &&
                                error == Some(Or(reply.serverError, LoadFailedMessage))
    {
      match reply {
        case Ok(d) => portfolioData := d;
        case Failed(msg) => error := Some(Or(msg, LoadFailedMessage));
      }
      loading := false;
    }

    function Shown(): View
      reads this
    {
      ViewOf(loading, error, portfolioData)
    }
  }

  /** A failed first fetch always ends on the not-found page. */
  method FailedFetchShowsNotFound(msg: Option<string>) returns (v: View)
    ensures v == NotFound
  {
    var page := new PortfolioPage();
    page.Fetch(Failed(msg));
    v := page.Shown();
  }
}

=== FILE: profile_settings.dfy ===
/** The profile settings page: a form of four fields loaded from the server,
    a picture upload guarded by a type and size check, and a save that sends
    every field but the username. */
module ProfileSettings {
  import opened Common
  import opened ImageFiles

  datatype ProfileForm = ProfileForm(username: string, displayName: string, bio: string, profilePic: string)

  const EmptyForm := ProfileForm("", "", "", "")

  /** The input ids `handleInputChange` may be called with. Only the display
      name and bio inputs are wired to it; the username input is disabled. */
  datatype FormField = Username | DisplayName | Bio | ProfilePic

  /** `{ ...formData, [id]: value }`: the named field takes the value, the
      others keep theirs. */
  function WithField(form: ProfileForm, field: FormField, value: string): (r: ProfileForm)
    ensures field == Username ==> r.username == value
    ensures field == DisplayName ==> r.displayName == value
    ensures field == Bio ==> r.bio == value
    ensures field == ProfilePic ==> r.profilePic == value
    ensures field != Username ==> r.username == form.username
    ensures field != DisplayName ==> r.displayName == form.displayName
    ensures field != Bio ==> r.bio == form.bio
    ensures field != ProfilePic ==> r.profilePic == form.profilePic
  {
    match field
    case Username => form.(username := value)
    case DisplayName => form.(displayName := value)
    case Bio => form.(bio := value)
    case ProfilePic => form.(profilePic := value)
  }

  /** Typing in the wired inputs never changes the username, and the last
      value typed into a field is the one kept. */
  lemma EditsKeepUsername(form: ProfileForm, field: FormField, v1: string, v2: string)
    requires field == DisplayName || field == Bio
    ensures WithField(form, field, v1).username == form.username
    ensures WithField(WithField(form, field, v1), field, v2) == WithField(form, field, v2)
  {
  }

  /** What choosing a picture leads to: the form afterwards, the toast shown
      (if any) and whether an upload request was made. */
  datatype UploadOutcome = UploadOutcome(form: ProfileForm, toastTitle: Option<string>, requested: bool)

  /** `handleProfilePicUpload`: no file does nothing; a wrong type or a file
      above 2 MiB is refused with a toast and no request; otherwise the file
      is uploaded and a successful reply's url becomes the picture. */
  function PicUpload(form: ProfileForm, file: Option<FileInfo>, reply: Reply<string>): (o: UploadOutcome)
    ensures o.requested <==> file.Some? && Check(file.value, SettingsTypes, SettingsLimit) == Accepted
    ensures !o.requested ==> o.form == form
    ensures file.None? ==> o.toastTitle.None?
    ensures file.Some? && Check(file.value, SettingsTypes, SettingsLimit) == WrongType ==>
              o.toastTitle == Some("Invalid file type")
    ensures file.Some? && Check(file.value, SettingsTypes, SettingsLimit) == TooLarge ==>
              o.toastTitle == Some("File too large")
    ensures o.requested && reply.Ok? ==> (o.form == form.(profilePic := reply.value) &&
              o.toastTitle == Some("Image uploaded"))
    ensures o.requested && reply.Failed? ==> (o.form == form && o.toastTitle == Some("Upload failed"))
  {
    if file.None? then UploadOutcome(form, None, false)
    else match Check(file.value, SettingsTypes, SettingsLimit)
      case WrongType => UploadOutcome(form, Some("Invalid file type"), false)
      case TooLarge => UploadOutcome(form, Some("File too large"), false)
      case Accepted =>
        match reply
        case Ok(url) => UploadOutcome(form.(profilePic := url), Some("Image uploaded"), true)
        case Failed(_) => UploadOutcome(form, Some("Upload failed"), true)
  }

  /** A file of exactly 2 MiB is uploaded; one byte more is refused. */
  lemma TwoMiBBoundary(form: ProfileForm, mime: string, reply: Reply<string>)
    requires mime in SettingsTypes
    ensures PicUpload(form, Some(FileInfo(mime, 2 * MiB)), reply).requested
    ensures !PicUpload(form, Some(FileInfo(mime, 2 * MiB + 1)), reply).requested
  {
  }

  /** The body of `PUT /api/profile/update`: never the username. */
  datatype UpdatePayload = UpdatePayload(displayName: string, bio: string, profilePic: string)

  /** The `user` of the update reply. */
  datatype SavedUser = SavedUser(displayName: string, bio: string, profilePic: string)

  function SavePayload(form: ProfileForm): (p: UpdatePayload)
    ensures p.displayName == form.displayName && p.bio == form.bio && p.profilePic == form.profilePic
  {
    UpdatePayload(form.displayName, form.bio, form.profilePic)
  }

  /** After a save the three sent fields take the server's values, the
      username is kept; a failed save changes nothing. */
  function AfterSave(form: ProfileForm, reply: Reply<SavedUser>): (r: ProfileForm)
    ensures r.username == form.username
    ensures reply.Failed? ==> r == form
    ensures reply.Ok? ==> r.displayName == reply.value.displayName && r.bio == reply.value.bio &&
                          r.profilePic == reply.value.profilePic
  {
    match reply
    case Ok(u) => ProfileForm(form.username, u.displayName, u.bio, u.profilePic)
    case Failed(_) => form
  }

  /** When the server stores what it was sent, saving leaves the form as it was. */
  lemma SaveEchoIsIdentity(form: ProfileForm)
    ensures AfterSave(form, Ok(SavedUser(form.displayName, form.bio, form.profilePic))) == form
  {
  }

  class SettingsPage {
    var formData: ProfileForm
    var loading: bool
    var uploading: bool

    constructor ()
      ensures formData == EmptyForm && loading && !uploading
    {
      formData := EmptyForm;
      loading := true;
      uploading := false;
    }

    /** The profile fetch fills all four fields; a failure keeps the form. */
    method Load(reply: Reply<ProfileForm>)
      modifies this
      ensures !loading && uploading == old(uploading)
      ensures formData == if reply.Ok? then reply.value else old(formData)
    {
      if reply.Ok? {
        formData := reply.value;
      }
      loading := false;
    }

    method HandleInputChange(field: FormField, value: string)
      modifies this
      ensures formData == WithField(old(formData), field, value)
      ensures loading == old(loading) && uploading == old(uploading)
    {
      formData := WithField(formData, field, value);
    }

    /** Choosing a file; `uploading` is false afterwards whichever way it went. */
    method HandleProfilePicUpload(file: Option<FileInfo>, reply: Reply<string>) returns (toastTitle: Option<string>)
      modifies this
      ensures formData == PicUpload(old(formData), file, reply).form
      ensures toastTitle == PicUpload(old(formData), file, reply).toastTitle
      ensures !PicUpload(old(formData), file, reply).requested ==> uploading == old(uploading)
      ensures PicUpload(old(formData), file, reply).requested ==> !uploading
      ensures loading == old(loading)
    {
      var o := PicUpload(formData, file, reply);
      if o.requested {
        uploading := true;
        formData := o.form;
        uploading := false;
      }
      toastTitle := o.toastTitle;
    }

    method HandleSaveChanges(reply: Reply<SavedUser>) returns (payload: UpdatePayload)
      modifies this
      ensures payload == SavePayload(old(formData))
      ensures formData == AfterSave(old(formData), reply)
      ensures loading == old(loading) && uploading == old(uploading)
    {
      payload := SavePayload(formData);
      formData := AfterSave(formData, reply);
    }
  }
}

=== FILE: profile_setup.dfy ===
/** The profile-setup wizard: five steps walked in a fixed order, a username
    rule checked before the availability request, an image check before the
    upload, and a final submission guarded by the two required fields. */
module ProfileSetup {
  import opened Common
  import opened ImageFiles

  datatype Step = Username | DisplayName | ProfilePicture | Bio | Complete

  /** Position of a step in the wizard, from 0 (username) to 4 (complete). */
  function Index(s: Step): (i: nat)
    ensures i <= 4
  {
    match s
    case Username => 0
    case DisplayName => 1
    case ProfilePicture => 2
    case Bio => 3
    case Complete => 4
  }

  /** The steps that offer a Skip button. */
  predicate IsOptional(s: Step)
  {
    s == ProfilePicture || s == Bio
  }

  /** The predecessor table of the Back button. */
  function Back(s: Step): (r: Step)
    ensures r == s <==> s == Username
    ensures s != Username ==> Index(r) + 1 == Index(s)
  {
    match s
    case Username => Username
    case DisplayName => Username
    case ProfilePicture => DisplayName
    case Bio => ProfilePicture
    case Complete => Bio
  }

  /** The Skip button: it advances only from an optional step. */
  function Skip(s: Step): (r: Step)
    ensures r != s <==> IsOptional(s)
    ensures IsOptional(s) ==> Index(r) == Index(s) + 1
  {
    match s
    case ProfilePicture => Bio
    case Bio => Complete
    case _ => s
  }

  /** Back undoes a skip: skipping from an optional step and going back
      returns to that step. */
  lemma BackUndoesSkip(s: Step)
    requires IsOptional(s)
    ensures Back(Skip(s)) == s
  {
  }

  // ---------------------------------------------------------------------
  // The username rule: 3 to 30 characters from [A-Za-z0-9_]. The form shows
  // the first failing message, in the order the rules are declared.

  const UsernameTooShort := "Username must be atleast 3 characters long"
  const UsernameTooLong := "Username must be atmost 20 characters long"
  const UsernameBadChars := "Username can only contain letters, numbers, and underscores."
  const UsernameTaken := "Username is already taken"

  predicate IsUsernameChar(c: char)
  {
    ('a' <= c <= 'z') || ('A' <= c <= 'Z') || ('0' <= c <= '9') || c == '_'
  }

  predicate UsernameChars(u: string)
  {
    forall i :: 0 <= i < |u| ==> IsUsernameChar(u[i])
  }

  /** The message the username field shows, or None when the name passes. */
  function UsernameError(u: string): (r: Option<string>)
    ensures r.None? <==> 3 <= |u| <= 30 && UsernameChars(u)
    ensures r == Some(UsernameTooShort) <==> |u| < 3
    ensures r == Some(UsernameTooLong) <==> |u| > 30
    ensures r == Some(UsernameBadChars) <==> 3 <= |u| <= 30 && !UsernameChars(u)
  {
    if |u| < 3 then Some(UsernameTooShort)
    else if |u| > 30 then Some(UsernameTooLong)
    else if !UsernameChars(u) then Some(UsernameBadChars)
    else None
  }

  /** The over-length message speaks of 20 characters, but a 25-character
      name passes and a 31-character name is refused with that message. */
  lemma UsernameLimitIsThirty()
    ensures UsernameError("abcdefghijklmnopqrstuvwxy") == None
    ensures UsernameError("abcdefghijklmnopqrstuvwxyz01234") == Some(UsernameTooLong)
  {
    var ok := "abcdefghijklmnopqrstuvwxy";
    assert |ok| == 25;
    assert forall i :: 0 <= i < |ok| ==> 'a' <= ok[i] <= 'z';
  }

  // ---------------------------------------------------------------------
  // The wizard's state.

  datatype UserData = UserData(username: string, displayName: string, profilePicture: string, bio: string)

  /** The body of the final `POST /api/profile/setup`. */
  datatype SetupPayload = SetupPayload(username: string, displayName: string, profilePic: string, bio: string)

  const PictureRequired := "Please upload a valid image file"
  const PictureWrongType := "Please upload a JPEG or PNG image."
  const PictureTooLarge := "File size must be less than 5MB."
  const UploadFailed := "Upload failed. Try again."
  const FieldsRequired := "Username and Display Name are required."
  const SetupFailed := "Something went wrong while saving your profile. Please try again."
  const SetupDone := "Profile setup complete"

  /** What the picture form should hold after a choice: the file when the
      wizard's check accepts it, nothing otherwise. */
  function CheckedChoice(file: Option<FileInfo>): (held: Option<FileInfo>)
    ensures held.Some? ==> Check(held.value, WizardTypes, WizardLimit) == Accepted
    ensures held.Some? <==> file.Some? && Check(file.value, WizardTypes, WizardLimit) == Accepted
    ensures held.Some? ==> held == file
  {
    if file.Some? && Check(file.value, WizardTypes, WizardLimit) == Accepted then file else None
  }

  class Wizard {
    var currentStep: Step
    var userData: UserData
    /** The page-level error line. */
    var error: Option<string>
    var loading: bool
    var isCheckingUsername: bool
    /** The username form's field message. */
    var usernameFieldError: Option<string>
    /** The picture form's field message. */
    var pictureFieldError: Option<string>
    /** The file held by the picture form. */
    var chosenPicture: Option<FileInfo>

    constructor ()
      ensures currentStep == Username && userData == UserData("", "", "", "")
      ensures error == None && !loading && !isCheckingUsername
      ensures usernameFieldError == None && pictureFieldError == None && chosenPicture == None
    {
      currentStep := Username;
      userData := UserData("", "", "", "");
      error := None;
      loading := false;
      isCheckingUsername := false;
      usernameFieldError := None;
      pictureFieldError := None;
      chosenPicture := None;
    }

    /** Submitting the username form: the rule is checked first and a failing
        name sends nothing; otherwise the availability answer decides. A
        failed availability request leaves `isCheckingUsername` set. */
    method SubmitUsername(name: string, availability: Reply<bool>) returns (requested: bool)
      modifies this
      ensures requested <==> UsernameError(name).None?
      ensures !requested ==> (usernameFieldError == UsernameError(name) &&
        currentStep == old(currentStep) && userData == old(userData) &&
        isCheckingUsername == old(isCheckingUsername))
      ensures requested && availability.Failed? ==> (isCheckingUsername &&
        usernameFieldError == None && currentStep == old(currentStep) && userData == old(userData))
      ensures requested && availability == Ok(true) ==> (!isCheckingUsername &&
        usernameFieldError == None && currentStep == DisplayName &&
        userData == old(userData).(username := name))
      ensures requested && availability == Ok(false) ==> (!isCheckingUsername &&
        usernameFieldError == Some(UsernameTaken) && currentStep == old(currentStep) &&
        userData == old(userData))
      ensures error == old(error) && loading == old(loading)
      ensures pictureFieldError == old(pictureFieldError) && chosenPicture == old(chosenPicture)
    {
      var message := UsernameError(name);
      if message.Some? {
        usernameFieldError := message;
        return false;
      }
      usernameFieldError := None;
      requested := true;
      isCheckingUsername := true;
      match availability
      case Failed(_) =>
      case Ok(available) =>
        isCheckingUsername := false;
        if available {
          userData := userData.(username := name);
          currentStep := DisplayName;
        } else {
          usernameFieldError := Some(UsernameTaken);
        }
    }

    /** The display-name form has no resolver: the entered value is stored
        as it is and the wizard moves on. */
    method SubmitDisplayName(name: string)
      modifies this
      ensures userData == old(userData).(displayName := name) && currentStep == ProfilePicture
      ensures error == old(error) && loading == old(loading) && isCheckingUsername == old(isCheckingUsername)
      ensures usernameFieldError == old(usernameFieldError) && pictureFieldError == old(pictureFieldError)
      ensures chosenPicture == old(chosenPicture)
    {
      userData := userData.(displayName := name);
      currentStep := ProfilePicture;
    }

    /** Choosing a file. The check sets or clears the page-level error
        (without a file it is left alone), and then the input's own change
        handler hands the chosen file, or nothing, to the picture form
        whatever the check said: a refused file is held just like an
        accepted one. */
    method ChooseImage(file: Option<FileInfo>)
      modifies this
      ensures chosenPicture == file
      ensures file.None? ==> error == old(error)
      ensures file.Some? && Check(file.value, WizardTypes, WizardLimit) == WrongType ==>
        error == Some(PictureWrongType)
      ensures file.Some? && Check(file.value, WizardTypes, WizardLimit) == TooLarge ==>
        error == Some(PictureTooLarge)
      ensures file.Some? && Check(file.value, WizardTypes, WizardLimit) == Accepted ==>
        error == None
      ensures currentStep == old(currentStep) && userData == old(userData) && loading == old(loading)
      ensures isCheckingUsername == old(isCheckingUsername)
      ensures usernameFieldError == old(usernameFieldError) && pictureFieldError == old(pictureFieldError)
    {
      if file.Some? {
        match Check(file.value, WizardTypes, WizardLimit)
        case WrongType => error := Some(PictureWrongType);
        case TooLarge => error := Some(PictureTooLarge);
        case Accepted => error := None;
      }
      chosenPicture := file;
    }

    /** Choosing a file as the check evidently intends: the error is set
        exactly as in `ChooseImage`, but the picture form holds the file only
        when the check accepts it and is cleared otherwise. */
    method ChooseImageChecked(file: Option<FileInfo>)
      modifies this
      ensures chosenPicture == CheckedChoice(file)
      ensures file.None? ==> error == old(error)
      ensures file.Some? && Check(file.value, WizardTypes, WizardLimit) == WrongType ==>
        error == Some(PictureWrongType)
      ensures file.Some? && Check(file.value, WizardTypes, WizardLimit) == TooLarge ==>
        error == Some(PictureTooLarge)
      ensures file.Some? && Check(file.value, WizardTypes, WizardLimit) == Accepted ==>
        error == None
      ensures currentStep == old(currentStep) && userData == old(userData) && loading == old(loading)
      ensures isCheckingUsername == old(isCheckingUsername)
      ensures usernameFieldError == old(usernameFieldError) && pictureFieldError == old(pictureFieldError)
    {
      ChooseImage(file);
      chosenPicture := CheckedChoice(file);
    }

    /** Submitting the picture form: without a held file the form's own
        message is shown and nothing is sent; otherwise the held file is
        uploaded, the upload outcome decides, and `loading` is false
        afterwards either way. */
    method SubmitProfilePicture(upload: Reply<string>) returns (sent: Option<FileInfo>)
      modifies this
      ensures sent == old(chosenPicture)
      ensures sent.None? ==> (pictureFieldError == Some(PictureRequired) &&
        currentStep == old(currentStep) && userData == old(userData) && error == old(error))
      ensures sent.Some? ==> pictureFieldError == None
      ensures sent.Some? && upload.Ok? ==> (currentStep == Bio &&
        userData == old(userData).(profilePicture := upload.value) && error == old(error))
      ensures sent.Some? && upload.Failed? ==> (currentStep == old(currentStep) &&
        userData == old(userData) && error == Some(Or(upload.serverError, UploadFailed)))
      ensures sent.Some? ==> !loading
      ensures sent.None? ==> loading == old(loading)
      ensures isCheckingUsername == old(isCheckingUsername) && usernameFieldError == old(usernameFieldError)
      ensures chosenPicture == old(chosenPicture)
    {
      if chosenPicture.None? {
        pictureFieldError := Some(PictureRequired);
        return None;
      }
      pictureFieldError := None;
      sent := chosenPicture;
      loading := true;
      match upload {
        case Ok(url) =>
          userData := userData.(profilePicture := url);
          currentStep := Bio;
        case Failed(serverError) =>
          error := Some(Or(serverError, UploadFailed));
      }
      loading := false;
    }

    /** The bio form has no resolver either: the value is stored as it is. */
    method SubmitBio(bio: string)
      modifies this
      ensures userData == old(userData).(bio := bio) && currentStep == Complete
      ensures error == old(error) && loading == old(loading) && isCheckingUsername == old(isCheckingUsername)
      ensures usernameFieldError == old(usernameFieldError) && pictureFieldError == old(pictureFieldError)
      ensures chosenPicture == old(chosenPicture)
    {
      userData := userData.(bio := bio);
      currentStep := Complete;
    }

    method SkipStep()
      modifies this
      ensures currentStep == Skip(old(currentStep))
      ensures userData == old(userData) && error == old(error) && loading == old(loading)
      ensures isCheckingUsername == old(isCheckingUsername)
      ensures usernameFieldError == old(usernameFieldError) && pictureFieldError == old(pictureFieldError)
      ensures chosenPicture == old(chosenPicture)
    {
      if currentStep == ProfilePicture {
        currentStep := Bio;
      } else if currentStep == Bio {
        currentStep := Complete;
      }
    }

    method GoBack()
      modifies this
      ensures currentStep == Back(old(currentStep))
      ensures userData == old(userData) && error == old(error) && loading == old(loading)
      ensures isCheckingUsername == old(isCheckingUsername)
      ensures usernameFieldError == old(usernameFieldError) && pictureFieldError == old(pictureFieldError)
      ensures chosenPicture == old(chosenPicture)
    {
      if currentStep == DisplayName {
        currentStep := Username;
      } else if currentStep == ProfilePicture {
        currentStep := DisplayName;
      } else if currentStep == Bio {
        currentStep := ProfilePicture;
      } else if currentStep == Complete {
        currentStep := Bio;
      }
    }

    /** The final submission. With an empty username or display name nothing
        is sent. Otherwise the reply counts as success only when its message
        is exactly "Profile setup complete"; success redirects to the
        dashboard, anything else sets the error. The step never changes and
        `loading` is false afterwards. */
    method CompleteSetup(reply: Reply<string>) returns (sent: Option<SetupPayload>, redirect: Option<string>)
      modifies this
      ensures sent.None? <==> old(userData).username == "" || old(userData).displayName == ""
      ensures sent.None? ==> error == Some(FieldsRequired) && redirect.None?
      ensures sent.Some? ==> sent.value == SetupPayload(userData.username, userData.displayName,
                                                         userData.profilePicture, userData.bio)
      ensures sent.Some? && reply == Ok(SetupDone) ==> redirect == Some("/dashboard") && error == old(error)
      ensures sent.Some? && reply.Ok? && reply.value != SetupDone ==>
        redirect.None? && error == Some(SetupFailed)
      ensures sent.Some? && reply.Failed? ==>
        redirect.None? && error == Some(Or(reply.serverError, SetupFailed))
      ensures !loading
      ensures currentStep == old(currentStep) && userData == old(userData)
      ensures isCheckingUsername == old(isCheckingUsername)
      ensures usernameFieldError == old(usernameFieldError) && pictureFieldError == old(pictureFieldError)
      ensures chosenPicture == old(chosenPicture)
    {
      loading := true;
      if userData.username == "" || userData.displayName == "" {
        error := Some(FieldsRequired);
        loading := false;
        return None, None;
      }
      sent := Some(SetupPayload(userData.username, userData.displayName, userData.profilePicture, userData.bio));
      match reply
      case Ok(message) =>
        if message == SetupDone {
          loading := false;
          redirect := Some("/dashboard");
        } else {
          error := Some(SetupFailed);
          loading := false;
          redirect := None;
        }
      case Failed(serverError) =>
        error := Some(Or(serverError, SetupFailed));
        loading := false;
        redirect := None;
    }
  }

  /** A run of the wizard that names a free username, skips both optional
      steps and completes reaches the dashboard with exactly the entered
      values. */
  method HappyPath(name: string, display: string) returns (sent: Option<SetupPayload>, redirect: Option<string>)
    requires UsernameError(name).None? && display != ""
    ensures sent == Some(SetupPayload(name, display, "", ""))
    ensures redirect == Some("/dashboard")
  {
    var w := new Wizard();
    var _ := w.SubmitUsername(name, Ok(true));
    w.SubmitDisplayName(display);
    w.SkipStep();
    w.SkipStep();
    assert w.currentStep == Complete;
    sent, redirect := w.CompleteSetup(Ok(SetupDone));
  }

  /** As written: a user who picks a file the check refuses (wrong type or
      too large) sees the error line, yet submitting the picture form still
      uploads that file and moves on to the bio step. */
  method RefusedFileUploadedAsWritten(name: string, display: string, file: FileInfo, url: string)
    returns (shown: Option<string>, sent: Option<FileInfo>, step: Step, picture: string)
    requires UsernameError(name).None? && display != ""
    requires Check(file, WizardTypes, WizardLimit) != Accepted
    ensures shown == Some(PictureWrongType) || shown == Some(PictureTooLarge)
    ensures sent == Some(file) && step == Bio && picture == url
  {
    var w := new Wizard();
    var _ := w.SubmitUsername(name, Ok(true));
    w.SubmitDisplayName(display);
    w.ChooseImage(Some(file));
    shown := w.error;
    sent := w.SubmitProfilePicture(Ok(url));
    step, picture := w.currentStep, w.userData.profilePicture;
  }

  /** Corrected: with `ChooseImageChecked`, a refused file is never sent;
      the picture form asks for a valid image and the wizard stays on the
      picture step with no picture stored. */
  method RefusedFileNeverUploaded(name: string, display: string, file: FileInfo, url: string)
    returns (sent: Option<FileInfo>, step: Step, picture: string, fieldError: Option<string>)
    requires UsernameError(name).None? && display != ""
    requires Check(file, WizardTypes, WizardLimit) != Accepted
    ensures sent.None? && step == ProfilePicture && picture == ""
    ensures fieldError == Some(PictureRequired)
  {
    var w := new Wizard();
    var _ := w.SubmitUsername(name, Ok(true));
    w.SubmitDisplayName(display);
    w.ChooseImageChecked(Some(file));
    sent := w.SubmitProfilePicture(Ok(url));
    step, picture, fieldError := w.currentStep, w.userData.profilePicture, w.pictureFieldError;
  }
}

=== FILE: protected_route.dfy ===
/** The guard placed around the dashboard routes: it waits for the
    authentication check, sends a visitor without a user to the login page,
    and otherwise renders the route. */
module ProtectedRoute {
  import opened Common
  import opened AuthContext

  datatype Decision =
    | Throws(message: string)
    | ShowLoading
    | RedirectToLogin(to: string, replace: bool, from: string)
    | RenderChildren

  const MissingProviderMessage := "ProtectedRoute must be used within an AuthProvider"

  /** `context` is missing when the guard is used outside the provider;
      `path` is the current location's path. */
  function Gate(context: Option<AuthState>, path: string): (d: Decision)
    ensures d.Throws? <==> context.None?
    ensures d.Throws? ==> d.message == MissingProviderMessage
    ensures d.ShowLoading? <==> context.Some? && context.value.loading
    ensures d.RedirectToLogin? <==> context.Some? && !context.value.loading && context.value.user.None?
    ensures d.RedirectToLogin? ==> d == RedirectToLogin("/login", true, path)
    ensures d.RenderChildren? <==> context.Some? && !context.value.loading && context.value.user.Some?
  {
    match context
    case None => Throws(MissingProviderMessage)
    case Some(s) =>
      if s.loading then ShowLoading
      else if s.user.None? then RedirectToLogin("/login", true, path)
      else RenderChildren
  }

  /** Once the provider renders its children, the guard never shows its own
      loading view; it renders the route exactly when a user is signed in. */
  lemma ReadyProviderNeverLoads(s: AuthState, path: string)
    requires RendersChildren(s)
    ensures !Gate(Some(s), path).ShowLoading?
    ensures Gate(Some(s), path).RenderChildren? <==> s.user.Some?
  {
  }

  /** After the initial check, a visitor is let in exactly when the check
      returned an authenticated user. */
  method GateAfterCheck(reply: Reply<AuthReply>, path: string) returns (d: Decision)
    ensures d.RenderChildren? <==> reply.Ok? && reply.value.isAuthenticated && reply.value.user.Some?
    ensures !d.RenderChildren? ==> d == RedirectToLogin("/login", true, path)
  {
    var provider := new AuthProvider();
    var _ := provider.CheckAuth(reply);
    d := Gate(Some(provider.State()), path);
  }
}

=== FILE: share_dialog.dfy ===
/** The share sheet: the page address it shows and copies, the social share
    buttons and the preview button. Its props may all be missing; a missing
    username or slug is interpolated as "undefined". */
module ShareDialog {
  import opened Common
  import opened PageUrls

  const Site := "https://linkfree.tech"

  /** The address shown and copied: the default-page address only when
      `isDefault` is true, otherwise the slug address. */
  function ShareUrl(username: Option<string>, slug: Option<string>, isDefault: Option<bool>): (url: string)
    ensures isDefault == Some(true) ==> url == Site + "/" + Interp(username)
    ensures isDefault != Some(true) ==> url == Site + "/" + Interp(username) + "/" + Interp(slug)
  {
    PageUrl(Site, Interp(username), Interp(slug), isDefault == Some(true))
  }

  /** The preview button always opens the username-only address. */
  function PreviewUrl(username: Option<string>): (url: string)
    ensures forall slug :: url == ShareUrl(username, slug, Some(true))
  {
    ProfileUrl(Site, Interp(username))
  }

  /** For a page that is not the default one, the preview opens another
      address than the one the sheet shows. */
  lemma PreviewDiffersFromNonDefault(username: Option<string>, slug: Option<string>, isDefault: Option<bool>)
    requires isDefault != Some(true)
    ensures PreviewUrl(username) != ShareUrl(username, slug, isDefault)
    ensures PreviewUrl(username) < ShareUrl(username, slug, isDefault)
  {
  }

  const TweetPrefix := "https://twitter.com/intent/tweet?url="
  const TweetSuffix := "&text=Check out my LinkFree profile!"
  const FacebookPrefix := "https://www.facebook.com/sharer/sharer.php?u="

  /** What a share button does: the window it opens, if any, and the title
      of the toast it shows. */
  datatype ShareEffect = ShareEffect(window: Option<string>, toastTitle: string)

  /** `handleSocialShare(platform)`; `encode` is `encodeURIComponent`. */
  function SocialShare(platform: string, username: Option<string>, encode: string -> string): (e: ShareEffect)
    ensures platform == "twitter" ==>
      e.window == Some(TweetPrefix + encode(PreviewUrl(username)) + TweetSuffix)
    ensures platform == "facebook" ==> e.window == Some(FacebookPrefix + encode(PreviewUrl(username)))
    ensures platform == "instagram" ==> e == ShareEffect(None, "Instagram sharing")
    ensures e.window.Some? <==> platform == "twitter" || platform == "facebook"
    ensures platform != "instagram" ==> e.toastTitle == "Sharing to " + platform
  {
    if platform == "twitter" then
      ShareEffect(Some(TweetPrefix + encode(ProfileUrl(Site, Interp(username))) + TweetSuffix), "Sharing to " + platform)
    else if platform == "facebook" then
      ShareEffect(Some(FacebookPrefix + encode(ProfileUrl(Site, Interp(username)))), "Sharing to " + platform)
    else if platform == "instagram" then
      ShareEffect(None, "Instagram sharing")
    else
      ShareEffect(None, "Sharing to " + platform)
  }

  /** The social share buttons ignore the slug: whatever page the sheet is
      open for, they share the same address. */
  lemma SocialShareIgnoresPage(platform: string, username: Option<string>, encode: string -> string,
                               slug: Option<string>)
    requires platform == "twitter" || platform == "facebook"
    ensures SocialShare(platform, username, encode).window.value
              == (if platform == "twitter" then TweetPrefix else FacebookPrefix)
                 + encode(ShareUrl(username, slug, Some(true)))
                 + (if platform == "twitter" then TweetSuffix else "")
  {
    assert PreviewUrl(username) == ShareUrl(username, slug, Some(true));
  }

  /** The sheet's own state: the props it was opened with and the "copied"
      indicator. */
  class ShareSheet {
    const username: Option<string>
    const slug: Option<string>
    const isDefault: Option<bool>
    var copied: bool

    constructor (username: Option<string>, slug: Option<string>, isDefault: Option<bool>)
      ensures this.username == username && this.slug == slug && this.isDefault == isDefault
      ensures !copied
    {
      this.username := username;
      this.slug := slug;
      this.isDefault := isDefault;
      copied := false;
    }

    /** The copy button writes the shown address and sets the indicator. */
    method CopyLink() returns (clipboard: string)
      modifies this
      ensures clipboard == ShareUrl(username, slug, isDefault)
      ensures copied
    {
      clipboard := ShareUrl(username, slug, isDefault);
      copied := true;
    }

    /** The timer two seconds after a copy clears the indicator. */
    method CopiedTimerFired()
      modifies this
      ensures !copied
    {
      copied := false;
    }
  }
}

=== FILE: signup.dfy ===
/** The sign-up form: five field rules, the password confirmation checked
    on the whole form and reported on the confirmation field, and the
    register request, which carries three of the fields. */
module Signup {
  import opened Common

  datatype SignupForm = SignupForm(name: string, email: string, password: string,
                                   confirmPassword: string, terms: bool)

  const DefaultForm := SignupForm("", "", "", "", false)

  const NameMessage := "Name must be at least 2 characters."
  const EmailMessage := "Please enter a valid email address."
  const PasswordMessage := "Password must be at least 8 characters."
  const MismatchMessage := "Passwords don't match"
  const TermsMessage := "You must agree to the terms and conditions."

  /** The message shown under each field, if any. */
  datatype SignupErrors = SignupErrors(name: Option<string>, email: Option<string>, password: Option<string>,
                                       confirmPassword: Option<string>, terms: Option<string>)

  predicate NoErrors(e: SignupErrors)
  {
    e.name.None? && e.email.None? && e.password.None? && e.confirmPassword.None? && e.terms.None?
  }

  /** The schema's verdict; `isEmail` is the schema's email test. The
      whole-form comparison of the two passwords is made even when a field
      rule failed, and its message goes on the confirmation field. */
  function Validate(f: SignupForm, isEmail: string -> bool): (e: SignupErrors)
    ensures e.name.Some? <==> |f.name| < 2
    ensures e.email.Some? <==> !isEmail(f.email)
    ensures e.password.Some? <==> |f.password| < 8
    ensures e.confirmPassword.Some? <==> f.password != f.confirmPassword
    ensures e.terms.Some? <==> !f.terms
    ensures e.name.Some? ==> e.name.value == NameMessage
    ensures e.email.Some? ==> e.email.value == EmailMessage
    ensures e.password.Some? ==> e.password.value == PasswordMessage
    ensures e.confirmPassword.Some? ==> e.confirmPassword.value == MismatchMessage
    ensures e.terms.Some? ==> e.terms.value == TermsMessage
  {
    SignupErrors(
      if |f.name| < 2 then Some(NameMessage) else None,
      if isEmail(f.email) then None else Some(EmailMessage),
      if |f.password| < 8 then Some(PasswordMessage) else None,
      if f.password == f.confirmPassword then None else Some(MismatchMessage),
      if f.terms then None else Some(TermsMessage))
  }

  /** The untouched form fails every rule except the password match. */
  lemma DefaultFormErrors(isEmail: string -> bool)
    requires !isEmail("")
    ensures var e := Validate(DefaultForm, isEmail);
            e.name.Some? && e.email.Some? && e.password.Some? && e.terms.Some? && e.confirmPassword.None?
  {
  }

  /** A form passes exactly when all five conditions hold. */
  lemma ValidIff(f: SignupForm, isEmail: string -> bool)
    ensures NoErrors(Validate(f, isEmail)) <==>
            |f.name| >= 2 && isEmail(f.email) && |f.password| >= 8 && f.password == f.confirmPassword && f.terms
  {
  }

  /** The body of `POST /api/user/register`. */
  datatype RegisterPayload = RegisterPayload(name: string, email: string, password: string)

  function Payload(f: SignupForm): (p: RegisterPayload)
    ensures p.name == f.name && p.email == f.email && p.password == f.password
  {
    RegisterPayload(f.name, f.email, f.password)
  }

  /** Two forms that differ only in the confirmation and the terms box send
      the same request. */
  lemma PayloadIgnoresConfirmation(f: SignupForm, confirm: string, terms: bool)
    ensures Payload(f.(confirmPassword := confirm, terms := terms)) == Payload(f)
  {
  }

  class SignupPage {
    var isLoading: bool

    constructor ()
      ensures !isLoading
    {
      isLoading := false;
    }

    /** A submit: an invalid form sends nothing; a valid one sends the
        register request, and on success the browser goes to the dashboard.
        `isLoading` is false afterwards either way. */
    method Submit(f: SignupForm, isEmail: string -> bool, reply: Reply<()>)
      returns (sent: Option<RegisterPayload>, redirect: Option<string>)
      modifies this
      ensures sent.Some? <==> NoErrors(Validate(f, isEmail))
      ensures sent.Some? ==> sent.value == Payload(f) && !isLoading
      ensures sent.None? ==> isLoading == old(isLoading)
      ensures redirect.Some? <==> sent.Some? && reply.Ok?
      ensures redirect.Some? ==> redirect.value == "/dashboard"
    {
      if !NoErrors(Validate(f, isEmail)) {
        sent, redirect := None, None;
        return;
      }
      isLoading := true;
      sent := Some(Payload(f));
      redirect := if reply.Ok? then Some("/dashboard") else None;
      isLoading := false;
    }
  }
}

=== FILE: social_links.dfy ===
/** The social-icons dialog. The list of social links is owned by the page
    being edited; every operation of the dialog builds a new list from the
    current one and hands it back, so each is a function here. */
module SocialLinks {
  import opened Common

  /** The closed set of platforms a social icon can point to. */
  datatype Platform = Github | Linkedin | Twitter | Mail | Instagram | Whatsapp

  /** One social icon. Entries the dialog adds also carry a timestamp `id`;
      entries loaded from the server carry whatever id the server sent. */
  datatype SocialLink = SocialLink(id: Option<int>, platform: Platform, url: string)

  predicate HasPlatform(links: seq<SocialLink>, p: Platform)
  {
    exists i :: 0 <= i < |links| && links[i].platform == p
  }

  /** The invariant the dialog is meant to keep: at most one entry per platform. */
  predicate OnePerPlatform(links: seq<SocialLink>)
  {
    forall i, j :: 0 <= i < j < |links| ==> links[i].platform != links[j].platform
  }

  /** `addSocialLink(p)`: a no-op when `p` is already present; otherwise one
      entry for `p` with an empty url is appended after the existing ones. */
  function AddSocialLink(links: seq<SocialLink>, p: Platform, stamp: int): (r: seq<SocialLink>)
    ensures |r| == if HasPlatform(links, p) then |links| else |links| + 1
    ensures r[..|links|] == links
    ensures |r| > |links| ==> r[|links|] == SocialLink(Some(stamp), p, "")
    ensures HasPlatform(r, p)
  {
    if HasPlatform(links, p) then links
    else
      var r := links + [SocialLink(Some(stamp), p, "")];
      assert r[|links|].platform == p;
      r
  }

  /** `removeSocialLink(p)`: every entry for `p` is dropped. */
  function RemoveSocialLink(links: seq<SocialLink>, p: Platform): (r: seq<SocialLink>)
    ensures !HasPlatform(r, p)
    ensures forall l :: l in r <==> l in links && l.platform != p
  {
    var r := Filter(links, (l: SocialLink) => l.platform != p);
    assert forall i :: 0 <= i < |r| ==> r[i] in r;
    r
  }

  /** `updateLinkUrl(p, u)`: the url of each entry for `p` becomes `u`. */
  function UpdateLinkUrl(links: seq<SocialLink>, p: Platform, u: string): (r: seq<SocialLink>)
    ensures |r| == |links|
    ensures forall i :: 0 <= i < |links| ==> r[i].platform == links[i].platform && r[i].id == links[i].id
    ensures forall i :: 0 <= i < |links| ==> r[i].url == if links[i].platform == p then u else links[i].url
  {
    seq(|links|, i requires 0 <= i < |links| =>
      if links[i].platform == p then links[i].(url := u) else links[i])
  }

  /** `toggleLinkStatus(p)` copies the entries for `p` without changing any
      field, so the list it hands back equals the one it was given. */
  function ToggleLinkStatus(links: seq<SocialLink>, p: Platform): (r: seq<SocialLink>)
    ensures r == links
  {
    var r := seq(|links|, i requires 0 <= i < |links| =>
      if links[i].platform == p then SocialLink(links[i].id, links[i].platform, links[i].url) else links[i]);
    assert forall i :: 0 <= i < |links| ==> r[i] == links[i];
    r
  }

  // ---------------------------------------------------------------------
  // Properties of the operations.

  /** Removing keeps every entry of another platform, as many times as it occurred. */
  lemma RemoveKeepsOthers(links: seq<SocialLink>, p: Platform, l: SocialLink)
    requires l.platform != p
    ensures multiset(RemoveSocialLink(links, p))[l] == multiset(links)[l]
  {
    FilterCount(links, (x: SocialLink) => x.platform != p, l);
  }

  /** Removing keeps the relative order of the surviving entries. */
  lemma RemoveOrder(a: seq<SocialLink>, b: seq<SocialLink>, p: Platform)
    ensures RemoveSocialLink(a + b, p) == RemoveSocialLink(a, p) + RemoveSocialLink(b, p)
  {
    FilterAppend(a, b, (x: SocialLink) => x.platform != p);
  }

  /** Removing a platform that is absent changes nothing. */
  lemma RemoveAbsent(links: seq<SocialLink>, p: Platform)
    requires !HasPlatform(links, p)
    ensures RemoveSocialLink(links, p) == links
  {
    FilterKeepsAll(links, (x: SocialLink) => x.platform != p);
  }

  /** Adding preserves the one-entry-per-platform invariant. */
  lemma AddKeepsOnePerPlatform(links: seq<SocialLink>, p: Platform, stamp: int)
    requires OnePerPlatform(links)
    ensures OnePerPlatform(AddSocialLink(links, p, stamp))
  {
    var r := AddSocialLink(links, p, stamp);
    if |r| > |links| {
      forall i, j | 0 <= i < j < |r| ensures r[i].platform != r[j].platform {
        if j == |links| {
          assert r[i] == links[i];
          assert !HasPlatform(links, p);
        } else {
          assert r[i] == links[i] && r[j] == links[j];
        }
      }
    }
  }

  /** Updating a url preserves the one-entry-per-platform invariant. */
  lemma UpdateKeepsOnePerPlatform(links: seq<SocialLink>, p: Platform, u: string)
    requires OnePerPlatform(links)
    ensures OnePerPlatform(UpdateLinkUrl(links, p, u))
  {
  }

  lemma {:induction false} RemoveKeepsOnePerPlatformRec(links: seq<SocialLink>, p: Platform)
    requires OnePerPlatform(links)
    ensures OnePerPlatform(Filter(links, (x: SocialLink) => x.platform != p))
  {
    var keep := (x: SocialLink) => x.platform != p;
    if links != [] {
      var rest := Filter(links[1..], keep);
      RemoveKeepsOnePerPlatformRec(links[1..], p);
      if keep(links[0]) {
        var r := [links[0]] + rest;
        assert Filter(links, keep) == r;
        forall i, j | 0 <= i < j < |r| ensures r[i].platform != r[j].platform {
          if i == 0 {
            assert r[j] in rest;
            assert r[j] in links[1..];
            var k :| 0 <= k < |links[1..]| && links[1..][k] == r[j];
            assert links[k + 1] == r[j];
          } else {
            assert r[i] == rest[i - 1] && r[j] == rest[j - 1];
          }
        }
      }
    }
  }

  /** Removing preserves the one-entry-per-platform invariant. */
  lemma RemoveKeepsOnePerPlatform(links: seq<SocialLink>, p: Platform)
    requires OnePerPlatform(links)
    ensures OnePerPlatform(RemoveSocialLink(links, p))
  {
    RemoveKeepsOnePerPlatformRec(links, p);
  }

  // ---------------------------------------------------------------------
  // The platforms offered by the "add" buttons.

  /** An entry of the dialog's fixed platform list; it has an `id` and a
      `label` (here `caption`) and no `platform` field. */
  datatype PlatformOption = PlatformOption(id: Platform, caption: string)

  const AvailablePlatforms: seq<PlatformOption> := [
    PlatformOption(Whatsapp, "WhatsApp"),
    PlatformOption(Mail, "Email"),
    PlatformOption(Linkedin, "LinkedIn"),
    PlatformOption(Github, "GitHub"),
    PlatformOption(Twitter, "Twitter"),
    PlatformOption(Instagram, "Instagram")
  ]

  /** Every platform is offered by exactly one entry of the fixed list. */
  lemma AvailablePlatformsCoverEnum(p: Platform)
    ensures exists k :: 0 <= k < |AvailablePlatforms| && AvailablePlatforms[k].id == p
    ensures forall i, j :: 0 <= i < j < |AvailablePlatforms| ==> AvailablePlatforms[i].id != AvailablePlatforms[j].id
  {
    match p
    case Whatsapp => assert AvailablePlatforms[0].id == p;
    case Mail => assert AvailablePlatforms[1].id == p;
    case Linkedin => assert AvailablePlatforms[2].id == p;
    case Github => assert AvailablePlatforms[3].id == p;
    case Twitter => assert AvailablePlatforms[4].id == p;
    case Instagram => assert AvailablePlatforms[5].id == p;
  }

  /** A JavaScript value read from a record field: a platform name, or
      `undefined` for a field the record does not have. */
  datatype FieldValue = Undefined | Named(p: Platform)

  /** `option.platform` on a `{id, label}` record: the field does not exist. */
  function PlatformField(o: PlatformOption): FieldValue
  {
    Undefined
  }

  function UsedPlatforms(links: seq<SocialLink>): (r: seq<FieldValue>)
    ensures |r| == |links|
    ensures forall i :: 0 <= i < |links| ==> r[i] == Named(links[i].platform)
  {
    seq(|links|, i requires 0 <= i < |links| => Named(links[i].platform))
  }

  /** `getUnusedPlatforms` as written: it looks up `platform.platform`, which
      is undefined, and no used platform is undefined, so the filter keeps
      all six entries whatever the list holds. */
  function UnusedPlatformsAsWritten(links: seq<SocialLink>): (r: seq<PlatformOption>)
    ensures r == AvailablePlatforms
  {
    var used := UsedPlatforms(links);
    var keep := (o: PlatformOption) => PlatformField(o) !in used;
    FilterKeepsAll(AvailablePlatforms, keep);
    Filter(AvailablePlatforms, keep)
  }

  /** As written, a platform that is already present is still offered, and
      pressing it is a no-op. */
  lemma AsWrittenOffersUsedPlatform(links: seq<SocialLink>, stamp: int)
    requires |links| > 0
    ensures exists o :: o in UnusedPlatformsAsWritten(links) && HasPlatform(links, o.id) &&
                        AddSocialLink(links, o.id, stamp) == links
  {
    AvailablePlatformsCoverEnum(links[0].platform);
    var k :| 0 <= k < |AvailablePlatforms| && AvailablePlatforms[k].id == links[0].platform;
    var o := AvailablePlatforms[k];
    assert o in UnusedPlatformsAsWritten(links);
    assert HasPlatform(links, o.id);
  }

  /** The intended list: the platforms without an entry yet, keyed by `id`. */
  function UnusedPlatforms(links: seq<SocialLink>): (r: seq<PlatformOption>)
    ensures forall o :: o in r <==> o in AvailablePlatforms && !HasPlatform(links, o.id)
  {
    Filter(AvailablePlatforms, (o: PlatformOption) => !HasPlatform(links, o.id))
  }

  /** With the intended list every offered platform really is added, and
      every platform missing from the list is offered. */
  lemma UnusedPlatformsMatchAdd(links: seq<SocialLink>, p: Platform, stamp: int)
    ensures (exists o :: o in UnusedPlatforms(links) && o.id == p) <==> !HasPlatform(links, p)
    ensures !HasPlatform(links, p) ==> |AddSocialLink(links, p, stamp)| == |links| + 1
  {
    AvailablePlatformsCoverEnum(p);
    if !HasPlatform(links, p) {
      var k :| 0 <= k < |AvailablePlatforms| && AvailablePlatforms[k].id == p;
      assert AvailablePlatforms[k] in UnusedPlatforms(links);
    }
  }
}

=== FILE: success_card.dfy ===
/** The card shown after a page is published: it shows the page address,
    copies it and opens it. The site is the configured front-end URL, which
    is interpolated as "undefined" when it is not configured. */
module SuccessCard {
  import opened Common
  import opened PageUrls
  import ShareDialog

  function ShareUrl(frontend: Option<string>, username: string, slug: Option<string>, isDefault: Option<bool>): (url: string)
    ensures isDefault == Some(true) ==> url == Interp(frontend) + "/" + username
    ensures isDefault != Some(true) ==> url == Interp(frontend) + "/" + username + "/" + Interp(slug)
  {
    PageUrl(Interp(frontend), username, Interp(slug), isDefault == Some(true))
  }

  /** With the front-end URL set to the public site, the card and the share
      sheet show the same address for the same page. */
  lemma AgreesWithShareDialog(username: string, slug: Option<string>, isDefault: Option<bool>)
    ensures ShareUrl(Some(ShareDialog.Site), username, slug, isDefault)
              == ShareDialog.ShareUrl(Some(username), slug, isDefault)
  {
  }

  /** What the card's buttons do. */
  datatype CardEffect = CardEffect(clipboard: Option<string>, window: Option<string>, toastTitle: Option<string>)

  datatype Button = CopyButton | ViewButton

  /** Pressing a button of the card showing `url`; `written` says whether
      the clipboard write succeeded. The copy button writes the address and
      toasts the outcome; "view page" opens the address. Every address the
      card hands out is the one it shows. */
  function Press(b: Button, url: string, written: bool): (e: CardEffect)
    ensures e.clipboard.Some? ==> e.clipboard.value == url
    ensures e.window.Some? ==> e.window.value == url
    ensures e.clipboard.Some? <==> b == CopyButton && written
    ensures e.window.Some? <==> b == ViewButton
    ensures b == CopyButton ==> e.toastTitle == Some(if written then "Link copied!" else "Failed to copy")
    ensures b == ViewButton ==> e.toastTitle.None?
  {
    match b
    case CopyButton =>
      if written then CardEffect(Some(url), None, Some("Link copied!"))
      else CardEffect(None, None, Some("Failed to copy"))
    case ViewButton => CardEffect(None, Some(url), None)
  }
}

=== FILE: themes.dfy ===
/** The themes page: four themes, two of them premium, and the active theme
    id, which applying a free theme changes and applying a premium one does
    not. */
module Themes {
  import opened Common

  datatype Theme = Theme(id: string, name: string, isPremium: bool)

  const AllThemes: seq<Theme> := [
    Theme("minimal", "Minimal", false),
    Theme("dark", "Dark Mode", false),
    Theme("gradient", "Gradient", true),
    Theme("retro", "Retro", true)
  ]

  const InitialTheme := "minimal"

  /** `themes.find(t => t.id === id)`: the first theme with that id. */
  function FindTheme(themes: seq<Theme>, id: string): (r: Option<Theme>)
    ensures r.None? <==> forall i :: 0 <= i < |themes| ==> themes[i].id != id
    ensures r.Some? ==> r.value in themes && r.value.id == id
  {
    if themes == [] then None
    else if themes[0].id == id then Some(themes[0])
    else FindTheme(themes[1..], id)
  }

  /** `find(...)?.isPremium`: true only for a known premium theme; an
      unknown id gives undefined, which is falsy. */
  predicate PremiumGuard(id: string)
    ensures PremiumGuard(id) <==> id == "gradient" || id == "retro"
  {
    var t := FindTheme(AllThemes, id);
    t.Some? && t.value.isPremium
  }

  /** The outcome of `handleApplyTheme`: the active theme afterwards and the
      title of the toast shown. */
  datatype Applied = Applied(active: string, toastTitle: string)

  function Apply(active: string, id: string): (r: Applied)
    ensures PremiumGuard(id) ==> r == Applied(active, "Premium Theme")
    ensures !PremiumGuard(id) ==> r == Applied(id, "Theme Applied")
  {
    if PremiumGuard(id) then Applied(active, "Premium Theme") else Applied(id, "Theme Applied")
  }

  /** The initial theme is one of the list and is free. */
  lemma InitialThemeIsFree()
    ensures FindTheme(AllThemes, InitialTheme) == Some(AllThemes[0])
    ensures !AllThemes[0].isPremium
  {
  }

  /** The free themes are applied, the premium ones leave the active theme
      as it was, and an id that names no theme is applied as well. */
  lemma ApplyByKind(active: string, id: string)
    ensures (id == "minimal" || id == "dark") ==> Apply(active, id).active == id
    ensures (id == "gradient" || id == "retro") ==> Apply(active, id).active == active
    ensures FindTheme(AllThemes, id).None? ==> Apply(active, id).active == id
  {
  }

  /** Applying the same theme twice is the same as applying it once. */
  lemma ApplyIdempotent(active: string, id: string)
    ensures Apply(Apply(active, id).active, id).active == Apply(active, id).active
  {
  }

  /** The premium guard keeps the active theme free: from a free or unknown
      theme, no sequence of applications reaches a premium one. */
  lemma ApplyNeverActivatesPremium(active: string, id: string)
    requires !PremiumGuard(active)
    ensures !PremiumGuard(Apply(active, id).active)
  {
  }

  /** The button of a theme card. */
  function ButtonLabel(active: string, t: Theme): (caption: string)
    ensures active == t.id ==> caption == "Applied"
    ensures active != t.id && t.isPremium ==> caption == "Upgrade to Use"
    ensures active != t.id && !t.isPremium ==> caption == "Apply Theme"
  {
    if active == t.id then "Applied" else if t.isPremium then "Upgrade to Use" else "Apply Theme"
  }

  class ThemesPage {
    var activeTheme: string

    constructor ()
      ensures activeTheme == InitialTheme
    {
      activeTheme := InitialTheme;
    }

    method ApplyTheme(id: string) returns (toastTitle: string)
      modifies this
      ensures Applied(activeTheme, toastTitle) == Apply(old(activeTheme), id)
    {
      var r := Apply(activeTheme, id);
      activeTheme := r.active;
      toastTitle := r.toastTitle;
    }
  }
}
